=== FILE: README.md ===
# Rotating-token attendance sessions, modelled in Dafny

This project models the core of a classroom attendance tracker. A faculty member
starts an attendance session for a course they own. The server then issues a
random token every ten seconds and shows it to the faculty dashboard, which
renders it as a QR code. A student scans the code. Their browser posts the token
and the device's coordinates. The server runs a fixed chain of checks and
records at most one attendance document per course, student and session date.

Every route handler and every firing of the refresh interval is one atomic step
over immutable state:

- the course collection, as a map from course id to course document;
- the in-memory `activeSessions` registry, as a map from course id to entry;
- the refresh intervals that have not been cleared, as a map from timer id to course id;
- the attendance ledger, as a sequence of documents under a unique (course, student, sessionDate) index;
- the log of socket events emitted to faculty rooms.

The clock is an integer number of milliseconds. The random bytes behind a token,
the ISO timestamp the start handler splits, and the great-circle distance in
metres are inputs.

Modules, one per source file plus small helpers:

- `Wrappers`, `Js`, `Decimal`: `Option`/`Result`; JavaScript values and truthiness; decimal printing of a number.
- `Tokens`: `generateToken`, hex encoding of 32 random bytes (backend/routes/faculty.js).
- `Courses`, `Ledger`: the course and attendance schemas; the unique index as insert-if-absent (backend/models).
- `Backend`: the server state and the invariant `Consistent` that every step keeps.
- `FacultyRoutes`: start-session, the interval tick, get-attendance (backend/routes/faculty.js).
- `StudentRoutes`: the mark-attendance chain (backend/routes/student.js).
- `FacultyDashboard`, `QrScanner`, `StudentDashboard`: the pure logic of the three front-end components.
- `SessionProperties`: properties of whole runs and across layers.

Behaviour of the code that a reader might not expect, and that the model keeps:

- A second start on a course that already has a session overwrites it; no conflict is reported.
- The first interval keeps running after such a restart.
- There is no cap on the number of rotations.
- A tick ends the session only when the clock is strictly past the stored expiry, or when the registry entry is gone. A tick that lands exactly on the expiry rotates (`FacultyRoutes.TickAtExpiryRotates`). If every tick were punctual, the session would never end (`FacultyRoutes.PunctualTicksNeverEnd`).
- A token is still accepted at the instant of its expiry. The check is `now > expiry`, not `now >= expiry`.
- The End Session button on the faculty dashboard only resets the view. It makes no server call, so the server keeps rotating tokens and accepting scans until a tick finds the session past its expiry.
- A latitude or longitude of exactly 0 is falsy, so it is refused as a missing field (`StudentRoutes.ZeroCoordinateIsMissing`).

`SessionProperties.SessionScenario` follows one course through a start, one
redemption, a second redemption by the same student, a tick exactly at the
expiry and a request carrying the superseded token. It is proved in three steps:
`StartThenRedeem`, `RedeemAgainRefused` and `RotateThenStale`.

## Model

| member | source | states |
|---|---|---|
| Tokens.GenerateToken | backend/routes/faculty.js:13-15 | a token is exactly 64 lower-case hex digits and decodes back to the 32 random bytes it was drawn from |
| Tokens.HexEncode | backend/routes/faculty.js:14 | hex encoding yields two hex digits per byte |
| Tokens.DecodeEncode | backend/routes/faculty.js:14 | decoding a hex encoding gives back the bytes |
| Tokens.DistinctDrawsDistinctTokens | backend/routes/faculty.js:13-15 | two different draws of random bytes never give the same token |
| Decimal.ParseToDecimal | backend/routes/student.js:62 | the distance printed in the refusal message reads back as the same number |
| Courses.Create | backend/models/Course.js:3-38 | a course is created exactly when courseName is a non-empty string and faculty is set; each missing path is reported; a new course has no students, an inactive session and the default classroom coordinates 26.9124, 75.7873 for any coordinate not supplied |
| Courses.Includes | backend/routes/student.js:30 | the enrolment test is true exactly when the user is in the course's students list |
| Ledger.Create | backend/models/Attendance.js:3-28 | a document is accepted exactly when course, student and a non-empty sessionDate are present; the error names exactly the missing ones; timestamp defaults to the insertion time |
| Ledger.FindKey | backend/routes/student.js:67-71 | the lookup finds a document with the key whenever one exists, and reports absence only when none does |
| Ledger.Insert | backend/models/Attendance.js:31 | an insert succeeds exactly when no document has the same (course, student, sessionDate); on success the ledger grows by exactly that document at the end |
| Ledger.InsertKeepsUnique | backend/models/Attendance.js:30-31 | inserting keeps the ledger free of two documents with the same key |
| Ledger.DuplicateRejected | backend/models/Attendance.js:31 | an insert whose key is already present fails with the duplicate-key error, code 11000 |
| Ledger.OtherDateCoexists | backend/models/Attendance.js:31 | the same course and student on a different session date is accepted and the index still holds |
| Ledger.InsertEach | backend/routes/student.js:67-88 | saves by other requests between the lookup and the save only append to the ledger and keep the index |
| Ledger.InsertEachCovers | backend/routes/student.js:67-88 | after those saves, every key they carried is present in the ledger |
| Ledger.Filter | backend/routes/faculty.js:175-178 | the query returns exactly the ledger documents with that course and session date, each as many times as the ledger holds it |
| Ledger.FilterAppend | backend/routes/faculty.js:175-178 | the query keeps ledger order: the result for two stretches of ledger is the result for the first followed by the result for the second |
| FacultyRoutes.DatePart | backend/routes/faculty.js:78 | sessionDate is the prefix of the ISO timestamp before its first 'T', or the whole string when it has none |
| FacultyRoutes.FindOwned | backend/routes/faculty.js:68-71 | the owned-course lookup finds a course exactly when one with that id exists and the caller is its faculty, and then it is that course |
| FacultyRoutes.StartSession | backend/routes/faculty.js:61-150 | a non-faculty caller gets 403 and a course the caller does not own gets 404, both with nothing changed; otherwise the course and the registry hold the same token, expiry now+10000 and date, one new-token event is emitted, exactly one new interval starts and every running one keeps running, and the ledger is untouched |
| FacultyRoutes.Tick | backend/routes/faculty.js:107-143 | a cleared interval does nothing; with no entry or now strictly past expiry the session ends (interval cleared, entry removed, course inactive, session-ended emitted); otherwise token and expiry now+10000 are written to both course and registry, the date is kept, new-token is emitted; in both cases only the named activeSession fields of the ticked course change, and other courses and intervals are untouched |
| FacultyRoutes.GetAttendance | backend/routes/faculty.js:158-185 | non-faculty gets 403 and a faculty caller who does not own the course gets 404; the records are returned exactly when the caller owns the course, and they are exactly the ledger documents of that course and date, each as often as stored |
| FacultyRoutes.StartKeepsConsistent | backend/routes/faculty.js:83-98 | after a start, course, registry and ledger still agree |
| FacultyRoutes.TickKeepsConsistent | backend/routes/faculty.js:109-136 | after a tick, course, registry and ledger still agree |
| FacultyRoutes.RestartOverwrites | backend/routes/faculty.js:83-107 | starting a course already in session succeeds, replaces its entry, and leaves the earlier interval running beside a new one |
| FacultyRoutes.TickAtExpiryRotates | backend/routes/faculty.js:109 | a tick exactly at the expiry rotates rather than ends |
| FacultyRoutes.PunctualTicksNeverEnd | backend/routes/faculty.js:107-143 | while every tick lands at or before the current expiry the session stays registered and its interval running, for any number of ticks |
| StudentRoutes.FindOne | backend/routes/student.js:67-71 | the duplicate lookup finds a document exactly when one with the caller's course, student and session date exists |
| StudentRoutes.MarkAttendance | backend/routes/student.js:10-117 | the checks run in source order, each refusal leaving the server unchanged; enrolment is decided before session state; a token is refused before expiry, and expiry is strict; more than 100 m is refused with the distance; a success appends exactly one record with the session's date, the submitted location and the request time, and the reply and the student-present event carry the same timestamp and distance; the ledger only grows and keeps its index; courses, registry and intervals are never written |
| StudentRoutes.MarkKeepsConsistent | backend/routes/student.js:67-88 | a mark keeps course, registry and ledger consistent |
| StudentRoutes.ZeroCoordinateIsMissing | backend/routes/student.js:18-22 | a latitude or longitude of exactly 0 is refused as a missing field |
| StudentRoutes.AtMostOncePerSession | backend/routes/student.js:67-75 | once the caller's record for the current session date exists, no further request of theirs for that course is marked |
| StudentRoutes.RaceMapsToAlreadyMarked | backend/routes/student.js:67-114 | when another request saves the same key between lookup and save, the duplicate-key failure is answered "already marked" and adds nothing |
| StudentRoutes.Redeemed | backend/routes/student.js:43-105 | a request passing every check, including exactly at expiry and at exactly 100 m, is marked and appends exactly one record |
| StudentRoutes.TooFarMessageNamesDistance | backend/routes/student.js:60-64 | the distance refusal message determines the distance it reports |
| FacultyDashboard.Countdown | frontend/src/components/Faculty/FacultyDashboard.js:36 | the countdown is never negative, is 0 exactly when now is at or past expiry, and otherwise is the number of seconds rounded up |
| FacultyDashboard.LastSecondShowsOne | frontend/src/components/Faculty/FacultyDashboard.js:36 | any positive remainder of at most one second shows 1 |
| FacultyDashboard.CountdownNonIncreasing | frontend/src/components/Faculty/FacultyDashboard.js:33-37 | the countdown never goes up as time passes |
| FacultyDashboard.WithExpiry | frontend/src/components/Faculty/FacultyDashboard.js:30-48 | setting the expiry restarts the countdown interval only when the value changes, running exactly when an expiry is set; nothing else changes |
| FacultyDashboard.CountdownTick | frontend/src/components/Faculty/FacultyDashboard.js:30-48 | a firing sets the countdown from the expiry and stops the timer exactly when it reaches 0; without a running timer nothing changes |
| FacultyDashboard.StoppedCountdownStaysStopped | frontend/src/components/Faculty/FacultyDashboard.js:39-41 | once the countdown reached 0, later firings change nothing |
| FacultyDashboard.OnNewToken | frontend/src/components/Faculty/FacultyDashboard.js:53-56 | new-token replaces token and expiry and leaves the list, session and error alone |
| FacultyDashboard.OnStudentPresent | frontend/src/components/Faculty/FacultyDashboard.js:58-60 | student-present appends exactly one entry at the end and changes nothing else |
| FacultyDashboard.OnSessionEnded | frontend/src/components/Faculty/FacultyDashboard.js:62-67 | session-ended clears session, token, expiry and countdown and stops the timer, keeping the list |
| FacultyDashboard.EndSession | frontend/src/components/Faculty/FacultyDashboard.js:101-107 | the End Session button clears the same fields and also empties the list |
| FacultyDashboard.StartSession | frontend/src/components/Faculty/FacultyDashboard.js:82-99 | under a socket service that provides the room and listener calls, a successful start clears the error, sets session, token and expiry from the response and empties the list; a failure sets only the error, to the server message or the fallback |
| FacultyDashboard.StartShowsQr | frontend/src/components/Faculty/FacultyDashboard.js:82-99 | after a successful start with a non-empty token the rendered QR code carries that token and the started course's id |
| FacultyDashboard.FailedStartKeepsQr | frontend/src/components/Faculty/FacultyDashboard.js:95-98 | a failed start leaves the rendered QR code as it was |
| FacultyDashboard.EndSessionHidesQr | frontend/src/components/Faculty/FacultyDashboard.js:101-107 | after End Session no QR code is rendered and the countdown interval changes nothing |
| FacultyDashboard.RenderedQr | frontend/src/components/Faculty/FacultyDashboard.js:134-175 | a QR code is rendered exactly when a session is shown and the token is non-empty, and it encodes that token, the course id and the render time |
| FacultyDashboard.SocketEventsOnlyAppend | frontend/src/components/Faculty/FacultyDashboard.js:50-68 | socket events never remove list entries: the list grows by exactly the number of student-present events |
| QrScanner.FailureMessage | frontend/src/components/Student/QRCodeScanner.js:42 | the failure message is the server message, else the error's message, else 'Failed to mark attendance', and is never empty |
| QrScanner.HandleScan | frontend/src/components/Student/QRCodeScanner.js:10-49 | a result while not scanning is ignored; an accepted result turns scanning off, and only a payload lacking token or courseId turns it back on with an error and nothing submitted; the body carries the payload's token and courseId with the device coordinates; success is reported exactly when the post succeeded, with the server's message; a JSON syntax error, a null payload or a failed position lookup reports failure with the error's own message or 'Failed to mark attendance', and submits nothing |
| QrScanner.HandleCameraError | frontend/src/components/Student/QRCodeScanner.js:89-94 | NotFoundException is ignored, any other camera error sets the camera message |
| QrScanner.CameraErrorKeepsGate | frontend/src/components/Student/QRCodeScanner.js:85-94 | a camera error never changes the scanning gate, and the next scan result is submitted and reported exactly as without it |
| QrScanner.DashboardQrAccepted | frontend/src/components/Student/QRCodeScanner.js:18-33 | a QR code the dashboard rendered with a course id passes the shape check and its scan submits exactly its token and course id |
| StudentDashboard.Stats | frontend/src/components/Student/StudentDashboard.js:67-74 | each name in the stats maps to the number of history records with that name, and names absent have no records |
| StudentDashboard.DisplayedCountIsCount | frontend/src/components/Student/StudentDashboard.js:118 | a course card shows the number of records with its name, 0 when there are none, combined across courses sharing a name |
| StudentDashboard.DisplayCount | frontend/src/components/Student/StudentDashboard.js:118 | the card shows the stats entry for its name, or 0 when there is none |
| StudentDashboard.StatsSumToLength | frontend/src/components/Student/StudentDashboard.js:69-72 | the counts in the stats sum to the length of the history |
| StudentDashboard.Reversed | frontend/src/components/Student/StudentDashboard.js:143 | the displayed history is the stored one in reverse order, same length |
| StudentDashboard.ReversedTwice | frontend/src/components/Student/StudentDashboard.js:143 | reversing the display gives back the stored list |
| StudentDashboard.HandleScanReport | frontend/src/components/Student/StudentDashboard.js:41-57 | the scanner closes, the message is the report's, its type is 'success' exactly on success and 'error' otherwise, and only a success refetches the history |
| StudentDashboard.ScanMessageMatchesPost | frontend/src/components/Student/StudentDashboard.js:41-51 | whatever the scanner reports, the message is a success, and the history is fetched again, exactly when the attendance post succeeded |
| StudentDashboard.ClearMessage | frontend/src/components/Student/StudentDashboard.js:53-56 | the timeout empties the message and keeps the history and the scanner state |
| StudentDashboard.ReportThenClear | frontend/src/components/Student/StudentDashboard.js:41-56 | once the timeout has fired, a handled report has left only the scanner closed |
| SessionProperties.CreatedCourseRefusesMarks | backend/routes/faculty.js:26-36 | a course as created has no students, so a student's redemption for it is refused as not enrolled, and no request for it changes the server |
| SessionProperties.RunKeepsConsistent | backend/models/Attendance.js:30-31 | across any run of starts, ticks and marks the ledger never holds two records with one key and course and registry agree |
| SessionProperties.LedgerUniqueFromBoot | backend/models/Attendance.js:31 | every run from a start with an empty attendance collection and no session running keeps the ledger's keys unique |
| SessionProperties.SupersededTokenRejected | backend/routes/student.js:39-41 | after a rotation, the previous token is refused as invalid even before its expiry |
| SessionProperties.EndedSessionRefuses | backend/routes/student.js:35-37 | after the interval ends a session, a redemption for that course gets "No active attendance session" |
| SessionProperties.StartThenRedeem | backend/routes/student.js:43-105 | in a run from an idle course, a start followed by a redemption at +3 s is marked; the ledger then holds exactly that record, one interval runs, and course and registry hold the started session |
| SessionProperties.SessionScenario | backend/routes/student.js:30-88 | in one run from an idle course: start, a redemption at +3 s is marked, a second at +4 s is refused as already marked, the tick exactly at the +10 s expiry rotates instead of ending, and the first token at +11 s is refused as invalid; the ledger then holds exactly the one record |
| SessionProperties.RedeemAgainRefused | backend/routes/student.js:67-75 | in that run, the second redemption at +4 s is refused as already marked and changes nothing |
| SessionProperties.RotateThenStale | backend/routes/student.js:39-41 | in that run, the tick at the +10 s expiry keeps the session, and the first token at +11 s is refused as invalid with the ledger holding the one record |
| SessionProperties.ScannedQrPassesFieldCheck | frontend/src/components/Student/QRCodeScanner.js:28-33 | the request scanned from a dashboard QR code carries the server's token, and passes the server's field check exactly when neither coordinate is 0 |

## Left out

- Great-circle distance (`geolib.getDistance`, `parseFloat`) is an oracle that returns whole metres; only the `> 100` test is modelled.
- Random bytes, the clock and date formatting are inputs. `toISOString` is a given string. `toLocale*` formatting is not modelled.
- The MongoDB and Mongoose calls `find`, `findOne`, `save`, `populate` and `sort` are in-memory maps and sequences.
- Mongoose type casting is not modelled. The stored location is the submitted value as given. A course id that is not a string fails as a server error.
- FacultyRoutes.StartSession: the model keys the registry, the room and the interval by the stored id of the course found. The source keys them by `req.body.courseId` as sent. With no courseId in the body, `findOne({ _id: undefined, faculty })` matches any course the caller owns. The source then starts that course, stores the entry under `undefined`, and its interval's `findByIdAndUpdate(undefined, …)` never reaches the course. After the entry is deleted, the course stays `isActive` with its first token. `Backend.Consistent` and `SessionProperties.RunKeepsConsistent` hold only for start requests whose courseId is the stored id of the course.
- Every string course id is taken as well formed. A malformed ObjectId would give 500 in the source; here it is a lookup miss, answered 404.
- Each handler and each tick is atomic. The awaits inside the tick are not interleaved. The only interleaving modelled is other saves between the duplicate lookup and the save, via the `racing` input.
- Because the handler computes the expiry before awaiting `course.save()` and only then registers the interval, the first firing in the source normally lands strictly after the expiry and ends the session. A firing exactly on the expiry, as in `SessionScenario` and `PunctualTicksNeverEnd`, is the rare timing, not the usual one.
- The scanner's `isScanning` closure is treated as up to date. React's stale-closure window between two rapid results is not modelled.
- Socket.io transport and rooms are left out. Emitted events form an append-only log keyed by course. The dashboard's socket callbacks are event inputs; the socket service that would register them is not part of this model.
- A process restart loses the registry while courses still say `isActive`. This crash behaviour is not modelled.
- The axios client, CRUD routes (create course, list courses, course history), modals, headers, routing and auth middleware are not modelled. Caller identity and role are inputs.
- JSON text is not modelled. The QR code and the scanned result are structured values, and a JSON syntax error is an input carrying its message.
- The course's and ledger's `createdAt`/`updatedAt` timestamps are not modelled.
- StudentDashboard.Stats: `stats` is a plain object in the source, so a course name inherited from `Object.prototype` behaves differently; the model counts every name as a plain key. For "constructor" the first bump turns the inherited `Object` function into the string of its source followed by "1", and each later bump appends another "1". For "__proto__" the assignment is ignored and the entry stays the prototype object.
- StudentDashboard.DisplayedCountIsCount: does not hold in the source for names inherited by plain objects; the lemma states the count for every other name. A course named "constructor" shows no number without records and that string with them, and one named "__proto__" makes the render throw.
- FacultyDashboard.StartSession: the shipped socket service defines no `joinFacultyRoom` and no `on*` listeners. Calling them throws inside the start handler's `try` after the state was set, so the source then shows "Failed to start session". The model assumes a socket service that provides them.
- StudentRoutes.MarkAttendance: the distance oracle always returns a whole number of metres. In the source a truthy non-numeric coordinate such as `true` makes `parseFloat` give NaN, `NaN > 100` is false, and the request passes the geofence; the model instead refuses it whenever the oracle reports more than 100 m.
- StudentRoutes.MarkAttendance: the 500 reply for an exception thrown by `populate` or by the socket emit is not modelled.

=== FILE: attendance.dfy ===
/**
 * The attendance ledger: attendance documents and the unique compound index
 * on (course, student, sessionDate) that makes marking at-most-once.
 */
module Ledger {
  import opened Wrappers
  import opened Js
  import opened Courses

  /** The location exactly as the student submitted it. */
  datatype Coords = Coords(lat: JsValue, lon: JsValue)

  /** A stored attendance document: every required path is set. */
  datatype Attendance = Attendance(
    course: CourseId,
    student: UserId,
    sessionDate: string,
    timestamp: int,
    location: Coords)

  /** The fields handed to `new Attendance({...})`, any of which may be missing. */
  datatype Draft = Draft(
    course: Option<CourseId>,
    student: Option<UserId>,
    sessionDate: Option<string>,
    timestamp: Option<int>,
    location: Coords)

  /** Document construction and validation: `course`, `student` and `sessionDate`
      are required, and `timestamp` defaults to the construction time `now`. */
  function Create(d: Draft, now: int): (r: Result<Attendance, ValidationError>)
    ensures r.Ok? <==> d.course.Some? && d.student.Some? && RequiredString(d.sessionDate)
    ensures r.Err? ==> (forall p :: p in r.error.paths <==>
                          (p == "course" && d.course.None?)
                          || (p == "student" && d.student.None?)
                          || (p == "sessionDate" && !RequiredString(d.sessionDate)))
    ensures r.Ok? ==> r.value.course == d.course.value && r.value.student == d.student.value
                      && r.value.sessionDate == d.sessionDate.value
                      && r.value.location == d.location
    ensures r.Ok? ==> r.value.timestamp == (if d.timestamp.Some? then d.timestamp.value else now)
  {
    var missing := (if d.course.Some? then {} else {"course"})
                 + (if d.student.Some? then {} else {"student"})
                 + (if RequiredString(d.sessionDate) then {} else {"sessionDate"});
    if missing != {} then Err(ValidationError(missing))
    else Ok(Attendance(d.course.value, d.student.value, d.sessionDate.value,
                       d.timestamp.GetOr(now), d.location))
  }

  /** The unique compound index key. */
  datatype Key = Key(course: CourseId, student: UserId, sessionDate: string)

  function KeyOf(a: Attendance): Key {
    Key(a.course, a.student, a.sessionDate)
  }

  /** The index invariant: no two documents share a key. */
  predicate UniqueKeys(ledger: seq<Attendance>) {
    forall i, j :: 0 <= i < j < |ledger| ==> KeyOf(ledger[i]) != KeyOf(ledger[j])
  }

  predicate HasKey(ledger: seq<Attendance>, k: Key) {
    exists i :: 0 <= i < |ledger| && KeyOf(ledger[i]) == k
  }

  /** `Attendance.findOne({course, student, sessionDate})`: the position of the
      first document with key `k`. */
  function FindKey(ledger: seq<Attendance>, k: Key): (r: Option<nat>)
    ensures r.Some? ==> r.value < |ledger| && KeyOf(ledger[r.value]) == k
    ensures r.None? <==> !HasKey(ledger, k)
  {
    if ledger == [] then None
    else if KeyOf(ledger[0]) == k then Some(0)
    else
      match FindKey(ledger[1..], k)
      case Some(i) => Some(i + 1)
      case None => None
  }

  /** MongoDB's duplicate-key error code. */
  const DuplicateKeyCode := 11000

  /** The only way an insert of a validated document fails here is the unique
      index, so the error has the single duplicate-key case. */
  datatype InsertError = DuplicateKey

  function Code(e: InsertError): int {
    DuplicateKeyCode
  }

  /** `save()` of a new document under the unique index: insert-if-absent. */
  function Insert(ledger: seq<Attendance>, a: Attendance): (r: Result<seq<Attendance>, InsertError>)
    ensures r.Ok? <==> !HasKey(ledger, KeyOf(a))
    ensures r.Ok? ==> |r.value| == |ledger| + 1 && r.value[..|ledger|] == ledger
                      && r.value[|ledger|] == a
  {
    if FindKey(ledger, KeyOf(a)).Some? then Err(DuplicateKey) else Ok(ledger + [a])
  }

  /** Inserting keeps the index invariant, whether the insert succeeds or not. */
  lemma InsertKeepsUnique(ledger: seq<Attendance>, a: Attendance)
    ensures UniqueKeys(ledger) && Insert(ledger, a).Ok? ==> UniqueKeys(Insert(ledger, a).value)
  {
  }

  /** A rejected insert leaves every existing document in place. */
  lemma DuplicateRejected(ledger: seq<Attendance>, a: Attendance, i: nat)
    requires i < |ledger| && KeyOf(ledger[i]) == KeyOf(a)
    ensures Insert(ledger, a) == Err(DuplicateKey)
    ensures Code(Insert(ledger, a).error) == 11000
  {
  }

  /** The same student in the same course on a different session date is a
      different key, so the insert goes through. */
  lemma OtherDateCoexists(ledger: seq<Attendance>, a: Attendance)
    requires UniqueKeys(ledger)
    requires forall i :: 0 <= i < |ledger| && ledger[i].course == a.course && ledger[i].student == a.student
                         ==> ledger[i].sessionDate != a.sessionDate
    ensures Insert(ledger, a).Ok?
    ensures UniqueKeys(Insert(ledger, a).value)
  {
    InsertKeepsUnique(ledger, a);
  }

  /** Several inserts, each insert-if-absent; a rejected one changes nothing. */
  function InsertEach(ledger: seq<Attendance>, docs: seq<Attendance>): (r: seq<Attendance>)
    ensures UniqueKeys(ledger) ==> UniqueKeys(r)
    ensures |r| >= |ledger| && r[..|ledger|] == ledger
    decreases |docs|
  {
    if docs == [] then ledger
    else
      InsertKeepsUnique(ledger, docs[0]);
      match Insert(ledger, docs[0])
      case Ok(l') => InsertEach(l', docs[1..])
      case Err(_) => InsertEach(ledger, docs[1..])
  }

  /** The documents of `ledger` with that course and session date, in ledger order. */
  function Select(ledger: seq<Attendance>, course: CourseId, sessionDate: string): (r: seq<Attendance>)
    ensures |r| <= |ledger|
  {
    if ledger == [] then []
    else if ledger[0].course == course && ledger[0].sessionDate == sessionDate
    then [ledger[0]] + Select(ledger[1..], course, sessionDate)
    else Select(ledger[1..], course, sessionDate)
  }

  /** What the selection holds: exactly the matching documents, each as often as
      the ledger holds it. */
  lemma {:induction false} SelectContents(ledger: seq<Attendance>, course: CourseId, sessionDate: string)
    ensures forall a :: multiset(Select(ledger, course, sessionDate))[a]
                        == if a.course == course && a.sessionDate == sessionDate then multiset(ledger)[a] else 0
    decreases |ledger|
  {
    if ledger != [] {
      assert ledger == [ledger[0]] + ledger[1..];
      SelectContents(ledger[1..], course, sessionDate);
    }
  }

  /** Selecting from two stretches of the ledger one after the other. */
  lemma {:induction false} SelectAppend(l1: seq<Attendance>, l2: seq<Attendance>, course: CourseId,
                                        sessionDate: string)
    ensures Select(l1 + l2, course, sessionDate) == Select(l1, course, sessionDate) + Select(l2, course, sessionDate)
    decreases |l1|
  {
    if l1 == [] {
      assert l1 + l2 == l2;
    } else {
      assert (l1 + l2)[0] == l1[0] && (l1 + l2)[1..] == l1[1..] + l2;
      SelectAppend(l1[1..], l2, course, sessionDate);
    }
  }

  /** `Attendance.find({course, sessionDate})`: every matching document exactly as
      often as the ledger holds it, and nothing else. */
  function Filter(ledger: seq<Attendance>, course: CourseId, sessionDate: string): (r: seq<Attendance>)
    ensures forall a :: a in r <==> a in ledger && a.course == course && a.sessionDate == sessionDate
    ensures forall a :: multiset(r)[a] == if a.course == course && a.sessionDate == sessionDate
                                          then multiset(ledger)[a] else 0
    ensures |r| <= |ledger|
  {
    SelectContents(ledger, course, sessionDate);
    Select(ledger, course, sessionDate)
  }

  /** The query keeps ledger order: filtering two stretches of the ledger one after
      the other gives the two results one after the other. */
  lemma FilterAppend(l1: seq<Attendance>, l2: seq<Attendance>, course: CourseId, sessionDate: string)
    ensures Filter(l1 + l2, course, sessionDate) == Filter(l1, course, sessionDate) + Filter(l2, course, sessionDate)
  {
    SelectAppend(l1, l2, course, sessionDate);
  }

  /** After several inserts every inserted key is present: each one either went
      in or met a document with its key already there. */
  lemma {:induction false} InsertEachCovers(ledger: seq<Attendance>, docs: seq<Attendance>, k: Key)
    requires HasKey(ledger, k) || exists i :: 0 <= i < |docs| && KeyOf(docs[i]) == k
    ensures HasKey(InsertEach(ledger, docs), k)
    decreases |docs|
  {
    if docs != [] {
      var next := match Insert(ledger, docs[0]) case Ok(l') => l' case Err(_) => ledger;
      assert InsertEach(ledger, docs) == InsertEach(next, docs[1..]);
      if HasKey(ledger, k) {
        var i :| 0 <= i < |ledger| && KeyOf(ledger[i]) == k;
        assert next[i] == ledger[i];
      } else if KeyOf(docs[0]) == k {
        if Insert(ledger, docs[0]).Ok? {
          assert next[|ledger|] == docs[0];
        }
      } else {
        var i :| 0 <= i < |docs| && KeyOf(docs[i]) == k;
        assert docs[1..][i - 1] == docs[i];
      }
      InsertEachCovers(next, docs[1..], k);
    }
  }
}

=== FILE: backend.dfy ===
/**
 * The server's state as the route handlers see it: the course collection,
 * the in-memory `activeSessions` registry, the running refresh intervals,
 * the attendance ledger and the log of events emitted to faculty rooms.
 */
module Backend {
  import opened Wrappers
  import opened Courses
  import opened Ledger

  /** The authenticated caller, as the auth middleware leaves it on the request. */
  datatype Caller = Caller(id: UserId, role: string, name: string, email: string)

  /** One `activeSessions` entry. */
  datatype SessionEntry = SessionEntry(token: string, expiry: int, sessionDate: string, courseId: CourseId)

  /** Events emitted to the room `faculty-<courseId>`. */
  datatype Event =
    | NewToken(course: CourseId, token: string, expiry: int)
    | StudentPresent(course: CourseId, studentName: string, studentEmail: string,
                     timestamp: int, distance: nat)
    | SessionEnded(course: CourseId)

  type TimerId = nat

  datatype Server = Server(
    courses: map<CourseId, Course>,
    registry: map<CourseId, SessionEntry>,
    timers: map<TimerId, CourseId>,   // intervals not yet cleared, with the course each serves
    nextTimer: TimerId,
    ledger: seq<Attendance>,
    events: seq<Event>)

  /** The `activeSession` sub-document that mirrors a registry entry. */
  function Live(e: SessionEntry): ActiveSession {
    ActiveSession(true, Some(e.token), Some(e.expiry), Some(e.sessionDate))
  }

  /** What every handler and tick keeps true: courses are stored under their id;
      a course's session is active exactly when the registry has an entry for it,
      and then the two agree on token, expiry and date; timer ids are fresh; the
      ledger index holds. */
  ghost predicate Consistent(s: Server) {
    && (forall cid :: cid in s.courses ==> s.courses[cid].id == cid)
    && (forall cid :: cid in s.registry ==>
          cid in s.courses && s.registry[cid].courseId == cid
          && s.courses[cid].activeSession == Live(s.registry[cid]))
    && (forall cid :: cid in s.courses && s.courses[cid].activeSession.isActive ==> cid in s.registry)
    && (forall t :: t in s.timers ==> t < s.nextTimer)
    && UniqueKeys(s.ledger)
  }

  /** A server just started: the given courses, none of them in session, and an empty ledger. */
  function Boot(courses: map<CourseId, Course>): (s: Server)
    requires forall cid :: cid in courses ==> courses[cid].id == cid && !courses[cid].activeSession.isActive
    ensures Consistent(s)
    ensures s.registry == map[] && s.timers == map[] && s.ledger == [] && s.events == []
  {
    Server(courses, map[], map[], 0, [], [])
  }
}

=== FILE: course.dfy ===
/**
 * The course document: its owner, its enrolment list, the classroom location
 * and the embedded `activeSession` sub-document that the session engine
 * writes.
 */
module Courses {
  import opened Wrappers

  type CourseId = string
  type UserId = string

  /** A schema validation failure naming every required path that was missing. */
  datatype ValidationError = ValidationError(paths: set<string>)

  datatype Location = Location(lat: real, lon: real)

  /** Classroom coordinates a course gets when none are supplied. */
  const DefaultClassroom := Location(26.9124, 75.7873)

  /** `activeSession`: only `isActive` has a default; the other fields stay unset
      until a session is started. */
  datatype ActiveSession = ActiveSession(
    isActive: bool,
    currentToken: Option<string>,
    tokenExpiry: Option<int>,
    sessionDate: Option<string>)

  datatype Course = Course(
    id: CourseId,
    courseName: string,
    faculty: UserId,
    students: seq<UserId>,
    classroom: Location,
    activeSession: ActiveSession)

  /** Mongoose's `required` on a string path rejects an unset value and the empty string. */
  predicate RequiredString(v: Option<string>) {
    v.Some? && v.value != ""
  }

  /** `new Course({...})` followed by validation: required paths checked, defaults applied. */
  function Create(id: CourseId, courseName: Option<string>, faculty: Option<UserId>,
                  lat: Option<real>, lon: Option<real>): (r: Result<Course, ValidationError>)
    ensures r.Ok? <==> RequiredString(courseName) && faculty.Some?
    ensures r.Err? ==> ("courseName" in r.error.paths <==> !RequiredString(courseName))
    ensures r.Err? ==> ("faculty" in r.error.paths <==> faculty.None?)
    ensures r.Ok? ==> r.value.id == id && r.value.courseName == courseName.value
                      && r.value.faculty == faculty.value
    ensures r.Ok? ==> r.value.students == [] && !r.value.activeSession.isActive
    ensures r.Ok? ==> r.value.classroom.lat == (if lat.Some? then lat.value else DefaultClassroom.lat)
    ensures r.Ok? ==> r.value.classroom.lon == (if lon.Some? then lon.value else DefaultClassroom.lon)
  {
    var missing := (if RequiredString(courseName) then {} else {"courseName"})
                 + (if faculty.Some? then {} else {"faculty"});
    if missing != {} then Err(ValidationError(missing))
    else
      Ok(Course(id, courseName.value, faculty.value, [],
                Location(lat.GetOr(DefaultClassroom.lat), lon.GetOr(DefaultClassroom.lon)),
                ActiveSession(false, None, None, None)))
  }

  /** `course.students.includes(user)`, a linear scan. */
  function Includes(students: seq<UserId>, user: UserId): (b: bool)
    ensures b <==> user in students
  {
    if students == [] then false
    else students[0] == user || Includes(students[1..], user)
  }

  /** Enrolment is membership in the course's student list. */
  predicate Enrolled(c: Course, user: UserId) {
    user in c.students
  }
}

=== FILE: decimal.dfy ===
/**
 * Decimal rendering of a natural number, as a JavaScript template literal
 * `${n}` prints an integral number, with the reading that inverts it.
 */
module Decimal {
  import opened Wrappers

  predicate IsDigit(c: char) {
    '0' <= c <= '9'
  }

  /** `n` written in base ten, no sign, no leading zeros. */
  function ToDecimal(n: nat): (s: string)
    ensures |s| >= 1
    ensures forall i :: 0 <= i < |s| ==> IsDigit(s[i])
    ensures |s| > 1 ==> s[0] != '0'
  {
    if n < 10 then [('0' as int + n) as char]
    else ToDecimal(n / 10) + [('0' as int + n % 10) as char]
  }

  /** The number a string of decimal digits denotes; `None` when it is empty or
      holds a non-digit. */
  function ParseDecimal(s: string): (r: Option<nat>)
    ensures r.Some? ==> |s| >= 1
  {
    if |s| == 0 || !IsDigit(s[|s| - 1]) then None
    else if |s| == 1 then Some(s[0] as int - '0' as int)
    else
      match ParseDecimal(s[..|s| - 1])
      case Some(high) => Some(high * 10 + (s[|s| - 1] as int - '0' as int))
      case None => None
  }

  /** Reading back the printed number gives the number. */
  lemma {:induction false} ParseToDecimal(n: nat)
    ensures ParseDecimal(ToDecimal(n)) == Some(n)
  {
    if n >= 10 {
      var s := ToDecimal(n);
      assert s[..|s| - 1] == ToDecimal(n / 10);
      ParseToDecimal(n / 10);
    }
  }

  /** Distinct numbers print differently. */
  lemma ToDecimalInjective(m: nat, n: nat)
    requires ToDecimal(m) == ToDecimal(n)
    ensures m == n
  {
    ParseToDecimal(m);
    ParseToDecimal(n);
  }
}

=== FILE: faculty_dashboard.dfy ===
/**
 * The faculty dashboard's view state: the session it shows, the current token
 * and its countdown, the live attendance list, and how socket events, the
 * start request and the End Session button change them; plus the QR payload
 * it renders.
 */
module FacultyDashboard {
  import opened Wrappers

  /** A `student-present` event's payload. */
  datatype PresentData = PresentData(studentName: string, studentEmail: string, timestamp: int, distance: nat)

  /** `activeSession` of the dashboard: the course it was started for. */
  datatype SessionView = SessionView(courseId: string, courseName: string)

  datatype View = View(
    activeSession: Option<SessionView>,
    currentToken: string,
    tokenExpiry: Option<int>,       // milliseconds
    countdown: int,                 // seconds shown
    error: string,
    attendanceList: seq<PresentData>,
    countdownRunning: bool)         // the one-second countdown interval is live

  /** `Math.max(0, Math.ceil((expiry - now) / 1000))`, seconds left. */
  function Countdown(expiry: int, now: int): (r: nat)
    ensures r == 0 <==> now >= expiry
    ensures r > 0 ==> (r - 1) * 1000 < expiry - now <= r * 1000
  {
    var ceil := -((now - expiry) / 1000);   // Euclidean division: this rounds up
    if ceil < 0 then 0 else ceil
  }

  /** Any positive remainder under a second shows as one second. */
  lemma LastSecondShowsOne(expiry: int, now: int)
    requires 0 < expiry - now <= 1000
    ensures Countdown(expiry, now) == 1
  {
  }

  /** The countdown never goes up as time passes. */
  lemma CountdownNonIncreasing(expiry: int, now1: int, now2: int)
    requires now1 <= now2
    ensures Countdown(expiry, now2) <= Countdown(expiry, now1)
  {
  }

  /** Setting `tokenExpiry` re-runs the countdown effect only when the value
      changes: the old interval is cleared and a new one starts if an expiry is set. */
  function WithExpiry(v: View, expiry: Option<int>): (r: View)
    ensures r.tokenExpiry == expiry
    ensures expiry == v.tokenExpiry ==> r == v
    ensures expiry != v.tokenExpiry ==> r.countdownRunning == expiry.Some?
    ensures r.(tokenExpiry := v.tokenExpiry, countdownRunning := v.countdownRunning) == v
  {
    if expiry == v.tokenExpiry then v
    else v.(tokenExpiry := expiry, countdownRunning := expiry.Some?)
  }

  /** One firing of the countdown interval at time `now`; it clears itself at zero. */
  function CountdownTick(v: View, now: int): (r: View)
    ensures !(v.countdownRunning && v.tokenExpiry.Some?) ==> r == v
    ensures v.countdownRunning && v.tokenExpiry.Some? ==>
              && r.countdown == Countdown(v.tokenExpiry.value, now)
              && r.countdownRunning == (now < v.tokenExpiry.value)
              && r.(countdown := v.countdown, countdownRunning := v.countdownRunning) == v
  {
    if v.countdownRunning && v.tokenExpiry.Some? then
      var left := Countdown(v.tokenExpiry.value, now);
      v.(countdown := left, countdownRunning := left != 0)
    else v
  }

  /** Once the countdown has stopped, later firings change nothing. */
  lemma StoppedCountdownStaysStopped(v: View, now1: int, now2: int)
    requires v.countdownRunning && v.tokenExpiry.Some?
    requires CountdownTick(v, now1).countdown == 0
    ensures CountdownTick(CountdownTick(v, now1), now2) == CountdownTick(v, now1)
  {
  }

  /** `new-token`: the token and expiry are replaced; nothing else is. */
  function OnNewToken(v: View, token: string, expiry: int): (r: View)
    ensures r.currentToken == token && r.tokenExpiry == Some(expiry)
    ensures r.attendanceList == v.attendanceList && r.activeSession == v.activeSession
    ensures r.error == v.error && r.countdown == v.countdown
  {
    WithExpiry(v.(currentToken := token), Some(expiry))
  }

  /** `student-present`: the payload is appended to the list. */
  function OnStudentPresent(v: View, data: PresentData): (r: View)
    ensures |r.attendanceList| == |v.attendanceList| + 1
    ensures r.attendanceList[..|v.attendanceList|] == v.attendanceList
    ensures r.attendanceList[|v.attendanceList|] == data
    ensures r.(attendanceList := v.attendanceList) == v
  {
    v.(attendanceList := v.attendanceList + [data])
  }

  /** `session-ended`: the session, token, expiry and countdown are cleared; the
      list of who attended stays on screen. */
  function OnSessionEnded(v: View): (r: View)
    ensures r.activeSession.None? && r.currentToken == "" && r.tokenExpiry.None? && r.countdown == 0
    ensures !r.countdownRunning
    ensures r.attendanceList == v.attendanceList && r.error == v.error
  {
    WithExpiry(v.(activeSession := None, currentToken := ""), None).(countdown := 0, countdownRunning := false)
  }

  /** The End Session button: like `session-ended`, and the list is emptied too. */
  function EndSession(v: View): (r: View)
    ensures r.activeSession.None? && r.currentToken == "" && r.tokenExpiry.None? && r.countdown == 0
    ensures !r.countdownRunning
    ensures r.attendanceList == [] && r.error == v.error
  {
    OnSessionEnded(v).(attendanceList := [])
  }

  /** What the start request came back with: the token and expiry, or the
      failure's server message ("" when it had none). */
  datatype StartResponse = StartOk(token: string, expiry: int) | StartFailed(serverMessage: string)

  /** `startSession(courseId, courseName)`: the error is cleared first; a success
      shows the new session with an empty list, a failure only sets the error. */
  function StartSession(v: View, courseId: string, courseName: string, resp: StartResponse): (r: View)
    ensures resp.StartOk? ==>
              && r.error == "" && r.activeSession == Some(SessionView(courseId, courseName))
              && r.currentToken == resp.token && r.tokenExpiry == Some(resp.expiry)
              && r.attendanceList == []
    ensures resp.StartFailed? ==>
              && r == v.(error := r.error)
              && r.error == (if resp.serverMessage != "" then resp.serverMessage else "Failed to start session")
  {
    var cleared := v.(error := "");
    match resp
    case StartOk(token, expiry) =>
      WithExpiry(cleared.(activeSession := Some(SessionView(courseId, courseName)), currentToken := token,
                          attendanceList := []),
                 Some(expiry))
    case StartFailed(msg) =>
      cleared.(error := if msg != "" then msg else "Failed to start session")
  }

  /** The QR code's content `{token, courseId, timestamp}`. */
  datatype QrPayload = QrPayload(token: string, courseId: string, timestamp: int)

  /** The QR code rendered at time `now`, if any: only inside an active session view
      and only while a token is held. */
  function RenderedQr(v: View, now: int): (r: Option<QrPayload>)
    ensures r.Some? <==> v.activeSession.Some? && v.currentToken != ""
    ensures r.Some? ==> r.value == QrPayload(v.currentToken, v.activeSession.value.courseId, now)
  {
    if v.activeSession.Some? && v.currentToken != ""
    then Some(QrPayload(v.currentToken, v.activeSession.value.courseId, now))
    else None
  }

  /** A successful start puts a QR code on screen that carries the new token and the
      started course's id. */
  lemma StartShowsQr(v: View, courseId: string, courseName: string, token: string, expiry: int, now: int)
    requires token != ""
    ensures RenderedQr(StartSession(v, courseId, courseName, StartOk(token, expiry)), now)
            == Some(QrPayload(token, courseId, now))
  {
  }

  /** A failed start leaves whatever QR code was on screen in place. */
  lemma FailedStartKeepsQr(v: View, courseId: string, courseName: string, message: string, now: int)
    ensures RenderedQr(StartSession(v, courseId, courseName, StartFailed(message)), now) == RenderedQr(v, now)
  {
  }

  /** After End Session no QR code is rendered, and the countdown interval, being
      stopped, changes nothing however often it would have fired. */
  lemma EndSessionHidesQr(v: View, now: int, later: int)
    ensures RenderedQr(EndSession(v), now).None?
    ensures CountdownTick(EndSession(v), later) == EndSession(v)
  {
  }

  /** The three socket events the dashboard listens to. */
  datatype SocketEvent =
    | NewTokenEvent(token: string, expiry: int)
    | StudentPresentEvent(data: PresentData)
    | SessionEndedEvent

  function OnSocket(v: View, e: SocketEvent): View {
    match e
    case NewTokenEvent(token, expiry) => OnNewToken(v, token, expiry)
    case StudentPresentEvent(data) => OnStudentPresent(v, data)
    case SessionEndedEvent => OnSessionEnded(v)
  }

  function OnSocketAll(v: View, es: seq<SocketEvent>): View
    decreases |es|
  {
    if es == [] then v else OnSocketAll(OnSocket(v, es[0]), es[1..])
  }

  /** Number of `student-present` events in `es`. */
  function PresentCount(es: seq<SocketEvent>): nat {
    if es == [] then 0 else (if es[0].StudentPresentEvent? then 1 else 0) + PresentCount(es[1..])
  }

  /** Socket events never remove a list entry: the list before is a prefix of the
      list after, which is longer by exactly the number of `student-present` events. */
  lemma {:induction false} SocketEventsOnlyAppend(v: View, es: seq<SocketEvent>)
    ensures var r := OnSocketAll(v, es);
            && |r.attendanceList| == |v.attendanceList| + PresentCount(es)
            && r.attendanceList[..|v.attendanceList|] == v.attendanceList
    decreases |es|
  {
    if es != [] {
      var v1 := OnSocket(v, es[0]);
      SocketEventsOnlyAppend(v1, es[1..]);
      var r := OnSocketAll(v, es);
      assert r.attendanceList[..|v.attendanceList|] == r.attendanceList[..|v1.attendanceList|][..|v.attendanceList|];
    }
  }
}

=== FILE: faculty_routes.dfy ===
/**
 * The faculty routes that drive a session: `generateToken`, `POST
 * /start-session`, the refresh-interval tick that rotates or ends the
 * session, and `GET /attendance/:courseId/:date`.
 *
 * The clock is an integer count of milliseconds; the ISO timestamp the start
 * handler splits, and the random bytes behind each token, are inputs.
 */
module FacultyRoutes {
  import opened Wrappers
  import opened Tokens
  import opened Courses
  import opened Ledger
  import opened Backend

  /** How long a token stays valid after it is issued, in milliseconds. */
  const TokenLifetime: int := 10000

  const FacultyRole := "faculty"

  /** The reply of a faculty route: the payload, or one of the two refusals. */
  datatype Reply<+T> = Done(value: T) | Forbidden | CourseNotFound {
    function Status(): nat {
      match this
      case Done(_) => 200
      case Forbidden => 403
      case CourseNotFound => 404
    }
    function Message(): string {
      match this
      case Done(_) => ""
      case Forbidden => "Access denied. Faculty only."
      case CourseNotFound => "Course not found"
    }
  }

  /** Body of a successful start: `{sessionDate, token, expiry}`. */
  datatype StartInfo = StartInfo(sessionDate: string, token: string, expiry: int)

  /** `iso.split('T')[0]`: everything before the first 'T', or all of it. */
  function DatePart(iso: string): (d: string)
    ensures d <= iso
    ensures 'T' !in d
    ensures d == iso || iso[|d|] == 'T'
  {
    if iso == [] || iso[0] == 'T' then []
    else [iso[0]] + DatePart(iso[1..])
  }

  /** `Course.findOne({_id: courseId, faculty: callerId})`. */
  function FindOwned(courses: map<CourseId, Course>, courseId: CourseId, faculty: UserId): (r: Option<Course>)
    ensures r.Some? <==> courseId in courses && courses[courseId].faculty == faculty
    ensures r.Some? ==> r.value == courses[courseId]
  {
    if courseId in courses && courses[courseId].faculty == faculty then Some(courses[courseId]) else None
  }

  /** The ids of the intervals still running for `courseId`. */
  function TimersFor(s: Server, courseId: CourseId): set<TimerId> {
    set t | t in s.timers && s.timers[t] == courseId
  }

  /** The registry entry a start writes. */
  function FreshEntry(courseId: CourseId, now: int, iso: string, random: Entropy): SessionEntry {
    SessionEntry(GenerateToken(random), now + TokenLifetime, DatePart(iso), courseId)
  }

  /** `POST /start-session`: role check, ownership lookup, then write the session to
      the course and the registry, emit the first token and start an interval. A
      session already running on the course is overwritten, not refused. */
  function StartSession(s: Server, caller: Caller, courseId: CourseId, now: int, iso: string,
                        random: Entropy): (r: (Server, Reply<StartInfo>))
    ensures caller.role != FacultyRole ==> r == (s, Forbidden)
    ensures caller.role == FacultyRole && !(courseId in s.courses && s.courses[courseId].faculty == caller.id)
            ==> r == (s, CourseNotFound)
    ensures r.1.Done? <==> caller.role == FacultyRole && courseId in s.courses
                           && s.courses[courseId].faculty == caller.id
    ensures r.1.Done? ==>
              var e := FreshEntry(courseId, now, iso, random);
              && r.1.value == StartInfo(e.sessionDate, e.token, e.expiry)
              && e.expiry == now + 10000 && |e.token| == 64
              && r.0.courses == s.courses[courseId := s.courses[courseId].(activeSession := Live(e))]
              && r.0.registry == s.registry[courseId := e]
              && r.0.events == s.events + [NewToken(courseId, e.token, e.expiry)]
              && r.0.timers == s.timers[s.nextTimer := courseId] && r.0.nextTimer == s.nextTimer + 1
              && TimersFor(r.0, courseId) == TimersFor(s, courseId) + {s.nextTimer}
              && r.0.ledger == s.ledger
  {
    if caller.role != FacultyRole then (s, Forbidden)
    else
      match FindOwned(s.courses, courseId, caller.id)
      case None => (s, CourseNotFound)
      case Some(course) =>
        var e := FreshEntry(courseId, now, iso, random);
        var s' := s.(courses := s.courses[courseId := course.(activeSession := Live(e))],
                     registry := s.registry[courseId := e],
                     events := s.events + [NewToken(courseId, e.token, e.expiry)],
                     timers := s.timers[s.nextTimer := courseId],
                     nextTimer := s.nextTimer + 1);
        assert TimersFor(s', courseId) == TimersFor(s, courseId) + {s.nextTimer};
        (s', Done(StartInfo(e.sessionDate, e.token, e.expiry)))
  }

  /** True when a tick of an interval serving `courseId` ends the session: the
      registry has no entry, or the clock is strictly past the entry's expiry. */
  predicate TickEnds(s: Server, courseId: CourseId, now: int) {
    courseId !in s.registry || now > s.registry[courseId].expiry
  }

  /** One firing of interval `t` at time `now`. A cleared interval never fires. */
  function Tick(s: Server, t: TimerId, now: int, random: Entropy): (r: Server)
    ensures t !in s.timers ==> r == s
    ensures t in s.timers && TickEnds(s, s.timers[t], now) ==>
              var cid := s.timers[t];
              && r.timers == s.timers - {t}
              && r.registry == s.registry - {cid}
              && r.events == s.events + [SessionEnded(cid)]
              && (cid in s.courses ==>
                    && cid in r.courses && !r.courses[cid].activeSession.isActive
                    && r.courses[cid] == s.courses[cid].(activeSession := r.courses[cid].activeSession)
                    && r.courses[cid].activeSession == s.courses[cid].activeSession.(isActive := false))
              && (forall c :: c in s.courses && c != cid ==> c in r.courses && r.courses[c] == s.courses[c])
              && r.courses.Keys == s.courses.Keys
              && r.ledger == s.ledger && r.nextTimer == s.nextTimer
    ensures t in s.timers && !TickEnds(s, s.timers[t], now) ==>
              var cid := s.timers[t];
              var prev := s.registry[cid];
              && r.timers == s.timers && r.nextTimer == s.nextTimer
              && cid in r.registry
              && r.registry[cid] == SessionEntry(GenerateToken(random), now + 10000, prev.sessionDate, prev.courseId)
              && (forall c :: c in s.registry && c != cid ==> c in r.registry && r.registry[c] == s.registry[c])
              && r.registry.Keys == s.registry.Keys
              && r.events == s.events + [NewToken(cid, GenerateToken(random), now + 10000)]
              && (cid in s.courses ==>
                    && cid in r.courses
                    && r.courses[cid].activeSession.currentToken == Some(GenerateToken(random))
                    && r.courses[cid].activeSession.tokenExpiry == Some(now + 10000)
                    && r.courses[cid].activeSession.sessionDate == s.courses[cid].activeSession.sessionDate
                    && r.courses[cid].activeSession.isActive == s.courses[cid].activeSession.isActive
                    && r.courses[cid] == s.courses[cid].(activeSession := r.courses[cid].activeSession))
              && (forall c :: c in s.courses && c != cid ==> c in r.courses && r.courses[c] == s.courses[c])
              && r.courses.Keys == s.courses.Keys
              && r.ledger == s.ledger
  {
    if t !in s.timers then s
    else
      var cid := s.timers[t];
      if TickEnds(s, cid, now) then
        var courses' :=
          if cid in s.courses
          then s.courses[cid := s.courses[cid].(activeSession := s.courses[cid].activeSession.(isActive := false))]
          else s.courses;
        s.(timers := s.timers - {t},
           courses := courses',
           registry := s.registry - {cid},
           events := s.events + [SessionEnded(cid)])
      else
        var token := GenerateToken(random);
        var expiry := now + TokenLifetime;
        var courses' :=
          if cid in s.courses
          then s.courses[cid := s.courses[cid].(activeSession :=
                 s.courses[cid].activeSession.(currentToken := Some(token), tokenExpiry := Some(expiry)))]
          else s.courses;
        s.(courses := courses',
           registry := s.registry[cid := s.registry[cid].(token := token, expiry := expiry)],
           events := s.events + [NewToken(cid, token, expiry)])
  }

  /** `GET /attendance/:courseId/:date`: role check, ownership check, then the
      ledger documents of that course and date. */
  function GetAttendance(s: Server, caller: Caller, courseId: CourseId, date: string): (r: Reply<seq<Attendance>>)
    ensures caller.role != FacultyRole ==> r == Forbidden
    ensures caller.role == FacultyRole && !(courseId in s.courses && s.courses[courseId].faculty == caller.id)
            ==> r == CourseNotFound
    ensures r.Done? <==> caller.role == FacultyRole && courseId in s.courses
                         && s.courses[courseId].faculty == caller.id
    ensures r.Done? ==> forall a :: a in r.value <==>
                          a in s.ledger && a.course == courseId && a.sessionDate == date
    ensures r.Done? ==> forall a :: multiset(r.value)[a] == if a.course == courseId && a.sessionDate == date
                                                          then multiset(s.ledger)[a] else 0
  {
    if caller.role != FacultyRole then Forbidden
    else if FindOwned(s.courses, courseId, caller.id).None? then CourseNotFound
    else Done(Filter(s.ledger, courseId, date))
  }

  /** A start keeps course, registry and ledger consistent. */
  lemma StartKeepsConsistent(s: Server, caller: Caller, courseId: CourseId, now: int, iso: string,
                             random: Entropy)
    requires Consistent(s)
    ensures Consistent(StartSession(s, caller, courseId, now, iso, random).0)
  {
  }

  /** A tick keeps course, registry and ledger consistent. */
  lemma TickKeepsConsistent(s: Server, t: TimerId, now: int, random: Entropy)
    requires Consistent(s)
    ensures Consistent(Tick(s, t, now, random))
  {
  }

  /** Starting a session on a course that already has one succeeds: the new token,
      expiry and date replace the old ones and the earlier interval keeps running
      beside a new one. */
  lemma RestartOverwrites(s: Server, caller: Caller, courseId: CourseId, now: int, iso: string,
                          random: Entropy)
    requires Consistent(s)
    requires caller.role == FacultyRole && courseId in s.courses && s.courses[courseId].faculty == caller.id
    requires courseId in s.registry
    ensures var r := StartSession(s, caller, courseId, now, iso, random);
            && r.1.Done?
            && r.0.registry[courseId] == FreshEntry(courseId, now, iso, random)
            && TimersFor(s, courseId) < TimersFor(r.0, courseId)
  {
  }

  /** A tick landing exactly on the expiry rotates: the comparison is strict. */
  lemma TickAtExpiryRotates(s: Server, t: TimerId, random: Entropy)
    requires t in s.timers && s.timers[t] in s.registry
    ensures var cid := s.timers[t];
            var r := Tick(s, t, s.registry[cid].expiry, random);
            && cid in r.registry && t in r.timers
            && r.registry[cid].expiry == s.registry[cid].expiry + TokenLifetime
  {
  }

  /** The interval `t` firing at each of `times` in turn, each firing drawing fresh bytes. */
  function TickAll(s: Server, t: TimerId, times: seq<int>, randoms: seq<Entropy>): Server
    requires |times| == |randoms|
    decreases |times|
  {
    if times == [] then s
    else TickAll(Tick(s, t, times[0], randoms[0]), t, times[1..], randoms[1..])
  }

  /** Each firing comes no later than the expiry the previous one set, starting from `expiry`. */
  predicate Punctual(expiry: int, times: seq<int>)
    decreases |times|
  {
    times == [] || (times[0] <= expiry && Punctual(times[0] + TokenLifetime, times[1..]))
  }

  /** There is no cap on rotations: as long as each firing lands at or before the
      current expiry, the session stays registered and its interval keeps running,
      however many firings there are. */
  lemma {:induction false} PunctualTicksNeverEnd(s: Server, t: TimerId, times: seq<int>, randoms: seq<Entropy>)
    requires t in s.timers && s.timers[t] in s.registry
    requires |times| == |randoms|
    requires Punctual(s.registry[s.timers[t]].expiry, times)
    ensures var r := TickAll(s, t, times, randoms);
            t in r.timers && r.timers[t] == s.timers[t] && s.timers[t] in r.registry
    decreases |times|
  {
    if times != [] {
      var s1 := Tick(s, t, times[0], randoms[0]);
      assert s1.registry[s.timers[t]].expiry == times[0] + TokenLifetime;
      PunctualTicksNeverEnd(s1, t, times[1..], randoms[1..]);
    }
  }
}

=== FILE: js.dfy ===
/**
 * JavaScript values as they arrive in a JSON request body or a decoded QR
 * payload, and JavaScript's notion of truthiness, which the handlers use as
 * their "field is present" test.
 */
module Js {

  datatype JsValue =
    | Undefined
    | Null
    | Bool(b: bool)
    | Num(n: real)
    | NaN
    | Str(s: string)
    | Object   // any object or array; always truthy

  /** `!!v` in JavaScript. */
  predicate Truthy(v: JsValue) {
    match v
    case Undefined => false
    case Null => false
    case Bool(b) => b
    case Num(n) => n != 0.0
    case NaN => false
    case Str(s) => s != ""
    case Object => true
  }

  /** The first non-empty string of `a`, `b`, else `fallback`: the `a || b || fallback`
      idiom applied to optional strings. */
  function FirstNonEmpty(a: string, b: string, fallback: string): (r: string)
    ensures r == a || r == b || r == fallback
    ensures r != "" <==> a != "" || b != "" || fallback != ""
    ensures a != "" ==> r == a
    ensures a == "" && b != "" ==> r == b
  {
    if a != "" then a else if b != "" then b else fallback
  }
}

=== FILE: qr_scanner.dfy ===
/**
 * The student's QR scanner: the gate that lets one scan result through at a
 * time, the shape check on the decoded payload, the attendance request it
 * submits and the report it hands back to the dashboard.
 *
 * JSON text is not modelled: a scan result is already decoded, geolocation
 * and the HTTP post are inputs.
 */
module QrScanner {
  import opened Wrappers
  import opened Js
  import opened FacultyDashboard
  import opened StudentRoutes

  /** `JSON.parse(result.getText())` followed by reading `.token` and `.courseId`:
      a syntax error, a `null` payload whose property read throws, or the two fields. */
  datatype Decoded =
    | NotJson(message: string)
    | NullPayload(message: string)
    | Fields(token: JsValue, courseId: JsValue)

  /** What the scanner reads off a QR code the faculty dashboard rendered. */
  function Decode(p: QrPayload): Decoded {
    Fields(Str(p.token), Str(p.courseId))
  }

  datatype Scanner = Scanner(isScanning: bool, error: string)

  const InvalidFormatMessage := "Invalid QR code format. Please scan a valid code."
  const CameraMessage := "Could not start the camera. Please grant camera permissions and refresh the page."
  const DefaultFailure := "Failed to mark attendance"

  /** The device position, or the message of the error it was rejected with. */
  datatype PositionResult = Located(latitude: real, longitude: real) | PositionFailed(message: string)

  /** The post's outcome: the server's message on success; on failure the
      server's message ("" without a response) and the error's own message. */
  datatype PostResult = PostOk(message: string) | PostFailed(serverMessage: string, errorMessage: string)

  /** What `onScanSuccess` is called with. */
  datatype Report = Report(success: bool, message: string)

  datatype ScanOutcome = ScanOutcome(scanner: Scanner, report: Option<Report>, submitted: Option<MarkBody>)

  /** `err.response?.data?.message || err.message || 'Failed to mark attendance'`. */
  function FailureMessage(serverMessage: string, errorMessage: string): (m: string)
    ensures serverMessage != "" ==> m == serverMessage
    ensures serverMessage == "" && errorMessage != "" ==> m == errorMessage
    ensures serverMessage == "" && errorMessage == "" ==> m == DefaultFailure
    ensures m != ""
  {
    FirstNonEmpty(serverMessage, errorMessage, DefaultFailure)
  }

  /** `!qrData.token || !qrData.courseId` is false. */
  predicate ShapeOk(d: Decoded) {
    d.Fields? && Truthy(d.token) && Truthy(d.courseId)
  }

  /** `handleScan(result)`. */
  function HandleScan(sc: Scanner, result: Option<Decoded>, position: PositionResult,
                      post: MarkBody -> PostResult): (o: ScanOutcome)
    // the gate
    ensures result.None? || !sc.isScanning ==> o == ScanOutcome(sc, None, None)
    // an accepted result switches scanning off; only a malformed payload switches it back on
    ensures result.Some? && sc.isScanning ==>
              && (o.scanner.isScanning <==> result.value.Fields? && !ShapeOk(result.value))
              && (o.scanner.isScanning ==>
                    o.scanner.error == InvalidFormatMessage && o.report.None? && o.submitted.None?)
              && (!o.scanner.isScanning ==> o.scanner.error == sc.error && o.report.Some?)
    // what is submitted comes from the payload and the device position
    ensures o.submitted.Some? ==>
              && result.Some? && ShapeOk(result.value) && position.Located?
              && o.submitted.value == MarkBody(result.value.token, Num(position.latitude),
                                               Num(position.longitude), result.value.courseId)
    ensures result.Some? && sc.isScanning && ShapeOk(result.value) && position.Located? ==> o.submitted.Some?
    // a JSON syntax error, a null payload or a failed position lookup lands in the catch
    ensures result.Some? && sc.isScanning && (result.value.NotJson? || result.value.NullPayload?) ==>
              o == ScanOutcome(sc.(isScanning := false), Some(Report(false, FailureMessage("", result.value.message))), None)
    ensures result.Some? && sc.isScanning && ShapeOk(result.value) && position.PositionFailed? ==>
              o == ScanOutcome(sc.(isScanning := false), Some(Report(false, FailureMessage("", position.message))), None)
    // the report
    ensures o.report.Some? ==>
              (o.report.value.success <==> o.submitted.Some? && post(o.submitted.value).PostOk?)
    ensures o.report.Some? && o.submitted.Some? ==>
              o.report.value.message == (match post(o.submitted.value)
                                         case PostOk(m) => m
                                         case PostFailed(sm, em) => FailureMessage(sm, em))
    ensures o.report.Some? && !o.report.value.success ==> o.report.value.message != ""
  {
    if result.None? || !sc.isScanning then ScanOutcome(sc, None, None)
    else
      var off := sc.(isScanning := false);
      match result.value
      case NotJson(msg) => ScanOutcome(off, Some(Report(false, FailureMessage("", msg))), None)
      case NullPayload(msg) => ScanOutcome(off, Some(Report(false, FailureMessage("", msg))), None)
      case Fields(token, courseId) =>
        if !Truthy(token) || !Truthy(courseId) then
          ScanOutcome(Scanner(true, InvalidFormatMessage), None, None)
        else
          match position
          case PositionFailed(msg) => ScanOutcome(off, Some(Report(false, FailureMessage("", msg))), None)
          case Located(lat, lon) =>
            var body := MarkBody(token, Num(lat), Num(lon), courseId);
            match post(body)
            case PostOk(m) => ScanOutcome(off, Some(Report(true, m)), Some(body))
            case PostFailed(sm, em) => ScanOutcome(off, Some(Report(false, FailureMessage(sm, em))), Some(body))
  }

  /** The reader's error callback: "no code in view" is ignored, anything else is
      shown as a camera problem. */
  function HandleCameraError(sc: Scanner, errorName: string): (r: Scanner)
    ensures errorName == "NotFoundException" ==> r == sc
    ensures errorName != "NotFoundException" ==> r == sc.(error := CameraMessage)
  {
    if errorName != "NotFoundException" then sc.(error := CameraMessage) else sc
  }

  /** A camera error never opens or closes the gate: the next scan result is
      handled, submitted and reported exactly as it would have been without it. */
  lemma CameraErrorKeepsGate(sc: Scanner, errorName: string, result: Option<Decoded>,
                             position: PositionResult, post: MarkBody -> PostResult)
    ensures HandleCameraError(sc, errorName).isScanning == sc.isScanning
    ensures var before := HandleScan(sc, result, position, post);
            var after := HandleScan(HandleCameraError(sc, errorName), result, position, post);
            && after.submitted == before.submitted
            && after.report == before.report
            && after.scanner.isScanning == before.scanner.isScanning
  {
  }

  /** A QR code rendered by the faculty dashboard always passes the shape check
      once it holds a course id, and scanning it while located submits exactly its
      token and course id. */
  lemma DashboardQrAccepted(v: View, now: int, sc: Scanner, lat: real, lon: real,
                            post: MarkBody -> PostResult)
    requires RenderedQr(v, now).Some?
    requires v.activeSession.value.courseId != ""
    requires sc.isScanning
    ensures ShapeOk(Decode(RenderedQr(v, now).value))
    ensures HandleScan(sc, Some(Decode(RenderedQr(v, now).value)), Located(lat, lon), post).submitted
            == Some(MarkBody(Str(v.currentToken), Num(lat), Num(lon), Str(v.activeSession.value.courseId)))
  {
  }
}

=== FILE: session_properties.dfy ===
/**
 * Properties of the whole session engine: what any run of start requests,
 * interval firings and redemptions keeps true, token freshness across a
 * rotation, refusal after the session ends, and the path from the faculty's
 * QR code to the server's field check.
 */
module SessionProperties {
  import opened Wrappers
  import opened Js
  import opened Tokens
  import opened Courses
  import opened Ledger
  import opened Backend
  import opened FacultyRoutes
  import opened StudentRoutes
  import opened FacultyDashboard
  import opened QrScanner

  /** One atomic step of the server. */
  datatype Step =
    | StartStep(caller: Caller, courseId: CourseId, now: int, iso: string, random: Entropy)
    | TickStep(timer: TimerId, now: int, random: Entropy)
    | MarkStep(caller: Caller, body: MarkBody, now: int, distance: DistanceOracle, racing: seq<Attendance>)

  function Apply(s: Server, step: Step): Server {
    match step
    case StartStep(caller, courseId, now, iso, random) => FacultyRoutes.StartSession(s, caller, courseId, now, iso, random).0
    case TickStep(timer, now, random) => Tick(s, timer, now, random)
    case MarkStep(caller, body, now, distance, racing) => MarkAttendance(s, caller, body, now, distance, racing).0
  }

  function Run(s: Server, steps: seq<Step>): Server
    decreases |steps|
  {
    if steps == [] then s else Run(Apply(s, steps[0]), steps[1..])
  }

  /** A course as `POST /courses` creates it has no students, so every redemption
      for it is refused and changes nothing until someone is enrolled. */
  lemma CreatedCourseRefusesMarks(s: Server, id: CourseId, courseName: Option<string>, faculty: Option<UserId>,
                                  lat: Option<real>, lon: Option<real>, caller: Caller, b: MarkBody, now: int,
                                  distance: DistanceOracle, racing: seq<Attendance>)
    requires Courses.Create(id, courseName, faculty, lat, lon).Ok?
    requires id in s.courses && s.courses[id] == Courses.Create(id, courseName, faculty, lat, lon).value
    requires b.courseId == Str(id)
    ensures var r := MarkAttendance(s, caller, b, now, distance, racing);
            && r.0 == s && !r.1.Marked?
            && (caller.role == StudentRole && FieldsPresent(b) ==> r.1 == NotEnrolled)
  {
  }

  /** Every run from a consistent server ends in a consistent one; in particular the
      ledger never holds two records for the same course, student and session date,
      and a course's `activeSession` always agrees with the registry. */
  lemma {:induction false} RunKeepsConsistent(s: Server, steps: seq<Step>)
    requires Consistent(s)
    ensures Consistent(Run(s, steps))
    decreases |steps|
  {
    if steps != [] {
      match steps[0] {
        case StartStep(caller, courseId, now, iso, random) =>
          StartKeepsConsistent(s, caller, courseId, now, iso, random);
        case TickStep(timer, now, random) =>
          TickKeepsConsistent(s, timer, now, random);
        case MarkStep(caller, body, now, distance, racing) =>
          MarkKeepsConsistent(s, caller, body, now, distance, racing);
      }
      RunKeepsConsistent(Apply(s, steps[0]), steps[1..]);
    }
  }

  /** The ledger of any run from a freshly booted server has unique keys. */
  lemma LedgerUniqueFromBoot(courses: map<CourseId, Course>, steps: seq<Step>)
    requires forall cid :: cid in courses ==> courses[cid].id == cid && !courses[cid].activeSession.isActive
    ensures UniqueKeys(Run(Boot(courses), steps).ledger)
  {
    RunKeepsConsistent(Boot(courses), steps);
  }

  /** Token freshness: once the interval has rotated the token, a request with the
      previous token is refused as invalid, even before that token's expiry. */
  lemma SupersededTokenRejected(s: Server, t: TimerId, now: int, r0: Entropy, random: Entropy,
                                caller: Caller, b: MarkBody, later: int,
                                distance: DistanceOracle, racing: seq<Attendance>)
    requires Consistent(s)
    requires t in s.timers && !TickEnds(s, s.timers[t], now)
    requires s.registry[s.timers[t]].token == GenerateToken(r0) && r0 != random
    requires b.courseId == Str(s.timers[t]) && b.token == Str(GenerateToken(r0))
    requires caller.role == StudentRole && FieldsPresent(b) && Enrolled(s.courses[s.timers[t]], caller.id)
    ensures var s' := Tick(s, t, now, random);
            MarkAttendance(s', caller, b, later, distance, racing) == (s', InvalidToken)
  {
  }

  /** After the interval ends the session, a redemption for that course meets
      "No active attendance session", whatever token it carries. */
  lemma EndedSessionRefuses(s: Server, t: TimerId, now: int, random: Entropy,
                            caller: Caller, b: MarkBody, later: int,
                            distance: DistanceOracle, racing: seq<Attendance>)
    requires Consistent(s)
    requires t in s.timers && TickEnds(s, s.timers[t], now)
    requires b.courseId == Str(s.timers[t]) && s.timers[t] in s.courses
    requires caller.role == StudentRole && FieldsPresent(b) && Enrolled(s.courses[s.timers[t]], caller.id)
    ensures var s' := Tick(s, t, now, random);
            && s.timers[t] !in s'.registry
            && MarkAttendance(s', caller, b, later, distance, racing) == (s', NoActiveSession)
  {
  }

  /** A request built by the scanner from a QR code the dashboard rendered for a
      server-issued token passes the server's field check exactly when neither
      coordinate is zero. */
  lemma ScannedQrPassesFieldCheck(v: View, now: int, sc: Scanner, lat: real, lon: real,
                                  post: MarkBody -> PostResult, random: Entropy)
    requires RenderedQr(v, now).Some? && v.activeSession.value.courseId != ""
    requires v.currentToken == GenerateToken(random)
    requires sc.isScanning
    ensures var o := HandleScan(sc, Some(Decode(RenderedQr(v, now).value)), Located(lat, lon), post);
            && o.submitted.Some?
            && o.submitted.value.token == Str(GenerateToken(random))
            && (FieldsPresent(o.submitted.value) <==> lat != 0.0 && lon != 0.0)
  {
  }

  /** The opening of the scenario below: a start on an idle course followed by a
      first redemption, which is marked. */
  lemma StartThenRedeem(c: Course, f: Caller, st: Caller, t0: int, iso: string, r1: Entropy,
                        distance: DistanceOracle, lat: real, lon: real)
    requires c.id != "" && !c.activeSession.isActive
    requires f.role == FacultyRole && c.faculty == f.id
    requires st.role == StudentRole && st.id in c.students
    requires lat != 0.0 && lon != 0.0
    requires distance(c.classroom, Num(lat), Num(lon)) <= MaxDistance
    requires DatePart(iso) != ""
    ensures var s1 := FacultyRoutes.StartSession(Boot(map[c.id := c]), f, c.id, t0, iso, r1).0;
            var b := MarkBody(Str(GenerateToken(r1)), Num(lat), Num(lon), Str(c.id));
            var first := MarkAttendance(s1, st, b, t0 + 3000, distance, []);
            && Consistent(first.0)
            && first.1 == Marked(t0 + 3000, distance(c.classroom, Num(lat), Num(lon)))
            && first.0.ledger == [Attendance(c.id, st.id, DatePart(iso), t0 + 3000, Coords(Num(lat), Num(lon)))]
            && first.0.timers == map[0 := c.id]
            && first.0.registry == map[c.id := FreshEntry(c.id, t0, iso, r1)]
            && first.0.courses == map[c.id := c.(activeSession := Live(FreshEntry(c.id, t0, iso, r1)))]
  {
    var s0 := Boot(map[c.id := c]);
    var s1 := FacultyRoutes.StartSession(s0, f, c.id, t0, iso, r1).0;
    var b := MarkBody(Str(GenerateToken(r1)), Num(lat), Num(lon), Str(c.id));
    StartKeepsConsistent(s0, f, c.id, t0, iso, r1);
    assert TimersFor(s1, c.id) == {0};
    assert s1.timers == map[0 := c.id];
    Redeemed(s1, st, b, t0 + 3000, distance);
    MarkKeepsConsistent(s1, st, b, t0 + 3000, distance, []);
  }

  /** The second step of the scenario: redeeming again at `t0`+4 s, with the record
      of the first redemption in the ledger, is refused as already marked and
      changes nothing. */
  lemma RedeemAgainRefused(c: Course, f: Caller, st: Caller, t0: int, iso: string, r1: Entropy,
                           distance: DistanceOracle, lat: real, lon: real)
    requires c.id != "" && !c.activeSession.isActive
    requires f.role == FacultyRole && c.faculty == f.id
    requires st.role == StudentRole && st.id in c.students
    requires lat != 0.0 && lon != 0.0
    requires distance(c.classroom, Num(lat), Num(lon)) <= MaxDistance
    requires DatePart(iso) != ""
    ensures var s1 := FacultyRoutes.StartSession(Boot(map[c.id := c]), f, c.id, t0, iso, r1).0;
            var b := MarkBody(Str(GenerateToken(r1)), Num(lat), Num(lon), Str(c.id));
            var s2 := MarkAttendance(s1, st, b, t0 + 3000, distance, []).0;
            MarkAttendance(s2, st, b, t0 + 4000, distance, []) == (s2, AlreadyMarked)
  {
    var s1 := FacultyRoutes.StartSession(Boot(map[c.id := c]), f, c.id, t0, iso, r1).0;
    var b := MarkBody(Str(GenerateToken(r1)), Num(lat), Num(lon), Str(c.id));
    StartThenRedeem(c, f, st, t0, iso, r1, distance, lat, lon);
    var s2 := MarkAttendance(s1, st, b, t0 + 3000, distance, []).0;
    var a := Attendance(c.id, st.id, DatePart(iso), t0 + 3000, Coords(Num(lat), Num(lon)));
    assert KeyOf(s2.ledger[0]) == KeyOf(a);
  }

  /** The last steps of the scenario: the interval fires exactly at the expiry
      `t0`+10 s and rotates, and the first token presented at `t0`+11 s is refused
      as invalid, leaving the one record of the first redemption. */
  lemma RotateThenStale(c: Course, f: Caller, st: Caller, t0: int, iso: string, r1: Entropy, r2: Entropy,
                        distance: DistanceOracle, lat: real, lon: real)
    requires c.id != "" && !c.activeSession.isActive
    requires f.role == FacultyRole && c.faculty == f.id
    requires st.role == StudentRole && st.id in c.students
    requires lat != 0.0 && lon != 0.0
    requires distance(c.classroom, Num(lat), Num(lon)) <= MaxDistance
    requires DatePart(iso) != ""
    requires r1 != r2
    ensures var s1 := FacultyRoutes.StartSession(Boot(map[c.id := c]), f, c.id, t0, iso, r1).0;
            var b := MarkBody(Str(GenerateToken(r1)), Num(lat), Num(lon), Str(c.id));
            var s2 := MarkAttendance(s1, st, b, t0 + 3000, distance, []).0;
            var s4 := Tick(s2, 0, t0 + 10000, r2);
            var stale := MarkAttendance(s4, st, b, t0 + 11000, distance, []);
            && c.id in s4.registry
            && stale.1 == InvalidToken
            && stale.0.ledger == [Attendance(c.id, st.id, DatePart(iso), t0 + 3000, Coords(Num(lat), Num(lon)))]
  {
    var s1 := FacultyRoutes.StartSession(Boot(map[c.id := c]), f, c.id, t0, iso, r1).0;
    var b := MarkBody(Str(GenerateToken(r1)), Num(lat), Num(lon), Str(c.id));
    StartThenRedeem(c, f, st, t0, iso, r1, distance, lat, lon);
    var s2 := MarkAttendance(s1, st, b, t0 + 3000, distance, []).0;
    TickAtExpiryRotates(s2, 0, r2);
    SupersededTokenRejected(s2, 0, t0 + 10000, r1, r2, st, b, t0 + 11000, distance, []);
  }

  /** One session as the code runs it. The faculty starts at `t0`; the student redeems
      at `t0`+3 s and is marked; redeeming again at `t0`+4 s is refused as already
      marked; the interval fires exactly at the expiry `t0`+10 s and rotates instead
      of ending; the first token presented at `t0`+11 s is refused as invalid. */
  lemma {:induction false} SessionScenario(c: Course, f: Caller, st: Caller, t0: int, iso: string,
                                           r1: Entropy, r2: Entropy, distance: DistanceOracle,
                                           lat: real, lon: real)
    requires c.id != "" && !c.activeSession.isActive
    requires f.role == FacultyRole && c.faculty == f.id
    requires st.role == StudentRole && st.id in c.students
    requires lat != 0.0 && lon != 0.0
    requires distance(c.classroom, Num(lat), Num(lon)) <= MaxDistance
    requires DatePart(iso) != ""
    requires r1 != r2
    ensures var s0 := Boot(map[c.id := c]);
            var start := FacultyRoutes.StartSession(s0, f, c.id, t0, iso, r1);
            var b := MarkBody(Str(GenerateToken(r1)), Num(lat), Num(lon), Str(c.id));
            var first := MarkAttendance(start.0, st, b, t0 + 3000, distance, []);
            var second := MarkAttendance(first.0, st, b, t0 + 4000, distance, []);
            var s4 := Tick(second.0, 0, t0 + 10000, r2);
            var stale := MarkAttendance(s4, st, b, t0 + 11000, distance, []);
            && start.1.Done?
            && first.1 == Marked(t0 + 3000, distance(c.classroom, Num(lat), Num(lon)))
            && second.1 == AlreadyMarked
            && c.id in s4.registry
            && stale.1 == InvalidToken
            && stale.0.ledger == [Attendance(c.id, st.id, DatePart(iso), t0 + 3000, Coords(Num(lat), Num(lon)))]
  {
    StartThenRedeem(c, f, st, t0, iso, r1, distance, lat, lon);
    RedeemAgainRefused(c, f, st, t0, iso, r1, distance, lat, lon);
    RotateThenStale(c, f, st, t0, iso, r1, r2, distance, lat, lon);
  }
}

=== FILE: student_dashboard.dfy ===
/**
 * The student dashboard: per-course attendance counts computed from the
 * attendance history, the reversed history display, and how a scan report
 * becomes the on-screen message.
 */
module StudentDashboard {
  import opened Wrappers
  import opened StudentRoutes
  import opened QrScanner

  /** One history entry as the dashboard reads it: the course's name, the session
      date and the time of marking. */
  datatype HistoryRecord = HistoryRecord(courseName: string, sessionDate: string, timestamp: int)

  /** The course names of the history, in order. */
  function Names(history: seq<HistoryRecord>): (r: seq<string>)
    ensures |r| == |history|
    ensures forall i :: 0 <= i < |history| ==> r[i] == history[i].courseName
  {
    if history == [] then [] else [history[0].courseName] + Names(history[1..])
  }

  /** Number of history records whose course has name `name`. */
  function Count(history: seq<HistoryRecord>, name: string): nat {
    multiset(Names(history))[name]
  }

  /** Counting a history is counting all but its last record, plus the last one. */
  lemma CountLast(history: seq<HistoryRecord>)
    requires history != []
    ensures forall n :: Count(history, n) == Count(history[..|history| - 1], n)
                                            + (if n == history[|history| - 1].courseName then 1 else 0)
  {
    var prefix := history[..|history| - 1];
    assert Names(history) == Names(prefix) + [history[|history| - 1].courseName];
  }

  /** `getAttendanceStats()`: a `forEach` over the history bumping
      `stats[courseName]`, starting from an empty object. */
  function Stats(history: seq<HistoryRecord>): (stats: map<string, nat>)
    ensures forall name :: name in stats ==> stats[name] == Count(history, name) && stats[name] > 0
    ensures forall name :: name !in stats ==> Count(history, name) == 0
    decreases |history|
  {
    if history == [] then map[]
    else
      var prefix := history[..|history| - 1];
      var stats := Stats(prefix);
      var name := history[|history| - 1].courseName;
      CountLast(history);
      stats[name := (if name in stats then stats[name] else 0) + 1]
  }

  /** `stats[course.courseName] || 0`, the count shown on a course card. */
  function DisplayCount(stats: map<string, nat>, courseName: string): (r: nat)
    ensures courseName in stats ==> r == stats[courseName]
    ensures courseName !in stats ==> r == 0
  {
    if courseName in stats then stats[courseName] else 0
  }

  /** Each course card shows how many history records carry its name: 0 when there
      are none, and one combined count for two courses that share a name. */
  lemma DisplayedCountIsCount(history: seq<HistoryRecord>, courseName: string)
    ensures DisplayCount(Stats(history), courseName) == Count(history, courseName)
  {
  }

  /** The sum of the values of a map. */
  ghost function MapSum(m: map<string, nat>): nat
    decreases |m|
  {
    if m == map[] then 0
    else
      var k :| k in m;
      m[k] + MapSum(m - {k})
  }

  /** The sum can peel off any key, not just the one it happened to pick. */
  lemma {:induction false} MapSumRemove(m: map<string, nat>, k: string)
    requires k in m
    ensures MapSum(m) == m[k] + MapSum(m - {k})
    decreases |m|
  {
    var j :| j in m && MapSum(m) == m[j] + MapSum(m - {j});
    if j != k {
      MapSumRemove(m - {j}, k);
      MapSumRemove(m - {k}, j);
      assert m - {j} - {k} == m - {k} - {j};
    }
  }

  /** Raising one entry by one raises the sum by one. */
  lemma MapSumBump(m: map<string, nat>, k: string)
    ensures MapSum(m[k := (if k in m then m[k] else 0) + 1]) == MapSum(m) + 1
  {
    var m' := m[k := (if k in m then m[k] else 0) + 1];
    MapSumRemove(m', k);
    assert m' - {k} == m - {k};
    if k in m {
      MapSumRemove(m, k);
    } else {
      assert m - {k} == m;
    }
  }

  /** The counts add up to the length of the history. */
  lemma {:induction false} StatsSumToLength(history: seq<HistoryRecord>)
    ensures MapSum(Stats(history)) == |history|
    decreases |history|
  {
    if history != [] {
      var prefix := history[..|history| - 1];
      StatsSumToLength(prefix);
      MapSumBump(Stats(prefix), history[|history| - 1].courseName);
    }
  }

  /** `history.slice().reverse()`: a reversed copy, the stored list untouched. */
  function Reversed(history: seq<HistoryRecord>): (r: seq<HistoryRecord>)
    ensures |r| == |history|
    ensures forall i :: 0 <= i < |history| ==> r[i] == history[|history| - 1 - i]
  {
    if history == [] then [] else Reversed(history[1..]) + [history[0]]
  }

  /** Reversing the displayed list gives back the stored one. */
  lemma ReversedTwice(history: seq<HistoryRecord>)
    ensures Reversed(Reversed(history)) == history
  {
  }

  datatype Message = Message(text: string, kind: string)

  datatype Dashboard = Dashboard(history: seq<HistoryRecord>, showScanner: bool, message: Message)

  /** `handleScanSuccess(result)`: closes the scanner and shows the report; the
      second component says whether the history is fetched again. */
  function HandleScanReport(d: Dashboard, report: Report): (r: (Dashboard, bool))
    ensures !r.0.showScanner && r.0.history == d.history
    ensures r.0.message.text == report.message
    ensures r.0.message.kind == "success" <==> report.success
    ensures r.0.message.kind == "error" <==> !report.success
    ensures r.1 <==> report.success
  {
    (d.(showScanner := false,
        message := Message(report.message, if report.success then "success" else "error")),
     report.success)
  }

  /** The timeout five seconds later clears the message. */
  function ClearMessage(d: Dashboard): (r: Dashboard)
    ensures r.message.text == "" && r.history == d.history && r.showScanner == d.showScanner
  {
    d.(message := Message("", ""))
  }

  /** Whatever the scanner reports, the dashboard shows a success message, and
      fetches the history again, exactly when the attendance post succeeded. */
  lemma ScanMessageMatchesPost(d: Dashboard, sc: Scanner, result: Option<Decoded>,
                               position: PositionResult, post: MarkBody -> PostResult)
    ensures var o := HandleScan(sc, result, position, post);
            o.report.Some? ==>
              var r := HandleScanReport(d, o.report.value);
              && (r.0.message.kind == "success" <==> o.submitted.Some? && post(o.submitted.value).PostOk?)
              && (r.1 <==> o.submitted.Some? && post(o.submitted.value).PostOk?)
  {
  }

  /** Once the timeout has cleared the message, a handled report has left nothing
      behind but the closed scanner. */
  lemma ReportThenClear(d: Dashboard, report: Report)
    ensures ClearMessage(HandleScanReport(d, report).0) == d.(showScanner := false, message := Message("", ""))
  {
  }
}

=== FILE: student_routes.dfy ===
/**
 * `POST /mark-attendance`: the ordered chain of checks a redemption goes
 * through, ending in an insert-if-absent on the ledger.
 *
 * The great-circle distance is an oracle from the classroom location and
 * the submitted coordinates to whole metres. Records that other requests
 * save while this one awaits between its duplicate lookup and its own save
 * are the `racing` input; in a handler that runs alone it is empty.
 */
module StudentRoutes {
  import opened Wrappers
  import opened Js
  import opened Decimal
  import opened Courses
  import opened Ledger
  import opened Backend

  const StudentRole := "student"

  /** Geofence radius in metres. */
  const MaxDistance: nat := 100

  /** The JSON body `{token, latitude, longitude, courseId}`. */
  datatype MarkBody = MarkBody(token: JsValue, latitude: JsValue, longitude: JsValue, courseId: JsValue)

  /** Distance in metres between the classroom and the submitted coordinates. */
  type DistanceOracle = (Location, JsValue, JsValue) -> nat

  datatype MarkReply =
    | NotStudent
    | MissingFields
    | CourseNotFound
    | NotEnrolled
    | NoActiveSession
    | InvalidToken
    | TokenExpired
    | TooFar(distance: nat)
    | AlreadyMarked
    | Marked(timestamp: int, distance: nat)
    | ServerError
  {
    function Status(): nat {
      match this
      case NotStudent => 403
      case MissingFields => 400
      case CourseNotFound => 404
      case NotEnrolled => 403
      case NoActiveSession => 400
      case InvalidToken => 400
      case TokenExpired => 400
      case TooFar(_) => 400
      case AlreadyMarked => 400
      case Marked(_, _) => 200
      case ServerError => 500
    }

    function Message(): string {
      match this
      case NotStudent => "Access denied. Students only."
      case MissingFields => "Missing required fields: token, latitude, longitude, courseId"
      case CourseNotFound => "Course not found"
      case NotEnrolled => "You are not enrolled in this course"
      case NoActiveSession => "No active attendance session"
      case InvalidToken => "Invalid or expired token"
      case TokenExpired => "Token has expired"
      case TooFar(d) => "You are too far from the classroom. Distance: " + ToDecimal(d) + "m (Max allowed: 100m)"
      case AlreadyMarked => "You have already been marked present for this session"
      case Marked(_, _) => "Attendance marked successfully"
      case ServerError => "Server error"
    }
  }

  /** `token && latitude && longitude && courseId`. */
  predicate FieldsPresent(b: MarkBody) {
    Truthy(b.token) && Truthy(b.latitude) && Truthy(b.longitude) && Truthy(b.courseId)
  }

  /** `activeSession.currentToken === token`. */
  predicate TokenMatches(a: ActiveSession, token: JsValue) {
    a.currentToken.Some? && token == Str(a.currentToken.value)
  }

  /** `new Date() > activeSession.tokenExpiry`; an unset expiry compares false. */
  predicate PastExpiry(a: ActiveSession, now: int) {
    a.tokenExpiry.Some? && now > a.tokenExpiry.value
  }

  /** The request got past the role check, the field check and the course lookup. */
  predicate ReachesCourse(s: Server, caller: Caller, b: MarkBody) {
    caller.role == StudentRole && FieldsPresent(b) && b.courseId.Str? && b.courseId.s in s.courses
  }

  /** ... and the caller is enrolled, so the session state is looked at. */
  predicate ReachesSession(s: Server, caller: Caller, b: MarkBody) {
    ReachesCourse(s, caller, b) && Enrolled(s.courses[b.courseId.s], caller.id)
  }

  /** ... and the session is active, the token is current and not past its expiry,
      so the distance is measured. */
  predicate ReachesGeofence(s: Server, caller: Caller, b: MarkBody, now: int) {
    && ReachesSession(s, caller, b)
    && var a := s.courses[b.courseId.s].activeSession;
    && a.isActive && TokenMatches(a, b.token) && !PastExpiry(a, now)
  }

  /** The duplicate lookup `findOne({course, student, sessionDate})`. An unset
      session date matches nothing, since every stored document has one. */
  function FindOne(ledger: seq<Attendance>, course: CourseId, student: UserId, date: Option<string>): (r: Option<Attendance>)
    ensures r.Some? <==> date.Some? && HasKey(ledger, Key(course, student, date.value))
    ensures r.Some? ==> r.value in ledger && KeyOf(r.value) == Key(course, student, date.value)
  {
    if date.None? then None
    else
      match FindKey(ledger, Key(course, student, date.value))
      case Some(i) => Some(ledger[i])
      case None => None
  }

  /** The document the handler builds for a redemption that passed every check. */
  function DraftFor(course: Course, caller: Caller, b: MarkBody): Draft {
    Draft(Some(course.id), Some(caller.id), course.activeSession.sessionDate, None,
          Coords(b.latitude, b.longitude))
  }

  function MarkAttendance(s: Server, caller: Caller, b: MarkBody, now: int,
                          distance: DistanceOracle, racing: seq<Attendance>): (r: (Server, MarkReply))
    // the checks in order; each refusal leaves the server as it was
    ensures caller.role != StudentRole ==> r == (s, NotStudent)
    ensures caller.role == StudentRole && !FieldsPresent(b) ==> r == (s, MissingFields)
    ensures caller.role == StudentRole && FieldsPresent(b) && !b.courseId.Str? ==> r == (s, ServerError)
    ensures caller.role == StudentRole && FieldsPresent(b) && b.courseId.Str? && b.courseId.s !in s.courses
            ==> r == (s, CourseNotFound)
    ensures ReachesCourse(s, caller, b) && !Enrolled(s.courses[b.courseId.s], caller.id)
            ==> r == (s, NotEnrolled)
    ensures ReachesSession(s, caller, b) && !s.courses[b.courseId.s].activeSession.isActive
            ==> r == (s, NoActiveSession)
    ensures ReachesSession(s, caller, b) && s.courses[b.courseId.s].activeSession.isActive
            && !TokenMatches(s.courses[b.courseId.s].activeSession, b.token)
            ==> r == (s, InvalidToken)
    ensures ReachesSession(s, caller, b) && s.courses[b.courseId.s].activeSession.isActive
            && TokenMatches(s.courses[b.courseId.s].activeSession, b.token)
            && PastExpiry(s.courses[b.courseId.s].activeSession, now)
            ==> r == (s, TokenExpired)
    ensures ReachesGeofence(s, caller, b, now)
            ==> var c := s.courses[b.courseId.s];
                var d := distance(c.classroom, b.latitude, b.longitude);
                && (d > MaxDistance ==> r == (s, TooFar(d)))
                && (d <= MaxDistance && FindOne(s.ledger, c.id, caller.id, c.activeSession.sessionDate).Some?
                    ==> r == (s, AlreadyMarked))
    // outcomes are reached only through their check
    ensures r.1.Marked? || r.1.TooFar? ==> ReachesGeofence(s, caller, b, now)
    ensures r.1.Marked? ==>
              var c := s.courses[b.courseId.s];
              && c.activeSession.sessionDate.Some?
              && var a := Attendance(c.id, caller.id, c.activeSession.sessionDate.value, now,
                                     Coords(b.latitude, b.longitude));
              var seen := InsertEach(s.ledger, racing);
              && r.1.distance <= MaxDistance
              && r.1.distance == distance(c.classroom, b.latitude, b.longitude)
              && r.1.timestamp == now
              && !HasKey(seen, KeyOf(a))
              && r.0.ledger == seen + [a]
              && r.0.events == s.events + [StudentPresent(c.id, caller.name, caller.email,
                                                           r.1.timestamp, r.1.distance)]
    ensures !r.1.Marked? ==> r.0.events == s.events
    // the ledger only ever grows, and keeps its index
    ensures |r.0.ledger| >= |s.ledger| && r.0.ledger[..|s.ledger|] == s.ledger
    ensures UniqueKeys(s.ledger) ==> UniqueKeys(r.0.ledger)
    // nothing but the ledger and the event log is written
    ensures r.0.courses == s.courses && r.0.registry == s.registry
    ensures r.0.timers == s.timers && r.0.nextTimer == s.nextTimer
  {
    if caller.role != StudentRole then (s, NotStudent)
    else if !FieldsPresent(b) then (s, MissingFields)
    else if !b.courseId.Str? then (s, ServerError)   // `findById` cannot cast the id
    else if b.courseId.s !in s.courses then (s, CourseNotFound)
    else
      var c := s.courses[b.courseId.s];
      if !Includes(c.students, caller.id) then (s, NotEnrolled)
      else if !c.activeSession.isActive then (s, NoActiveSession)
      else if !TokenMatches(c.activeSession, b.token) then (s, InvalidToken)
      else if PastExpiry(c.activeSession, now) then (s, TokenExpired)
      else
        var d := distance(c.classroom, b.latitude, b.longitude);
        if d > MaxDistance then (s, TooFar(d))
        else if FindOne(s.ledger, c.id, caller.id, c.activeSession.sessionDate).Some? then (s, AlreadyMarked)
        else
          var seen := InsertEach(s.ledger, racing);
          match Ledger.Create(DraftFor(c, caller, b), now)
          case Err(_) => (s.(ledger := seen), ServerError)
          case Ok(a) =>
            match Insert(seen, a)
            case Err(_) =>
              (s.(ledger := seen), AlreadyMarked)
            case Ok(ledger') =>
              (s.(ledger := ledger',
                  events := s.events + [StudentPresent(c.id, caller.name, caller.email, a.timestamp, d)]),
               Marked(a.timestamp, d))
  }

  /** A mark keeps course, registry and ledger consistent. */
  lemma MarkKeepsConsistent(s: Server, caller: Caller, b: MarkBody, now: int,
                            distance: DistanceOracle, racing: seq<Attendance>)
    requires Consistent(s)
    ensures Consistent(MarkAttendance(s, caller, b, now, distance, racing).0)
  {
  }

  /** A coordinate of exactly zero is falsy, so the request is refused as missing a field. */
  lemma ZeroCoordinateIsMissing(s: Server, caller: Caller, b: MarkBody, now: int,
                                distance: DistanceOracle, racing: seq<Attendance>)
    requires caller.role == StudentRole
    requires b.latitude == Num(0.0) || b.longitude == Num(0.0)
    ensures MarkAttendance(s, caller, b, now, distance, racing) == (s, MissingFields)
  {
  }

  /** Once the ledger holds the caller's record for the course's current session
      date, no request of that caller for that course is marked again. */
  lemma AtMostOncePerSession(s: Server, caller: Caller, b: MarkBody, now: int,
                             distance: DistanceOracle, racing: seq<Attendance>)
    requires b.courseId.Str? && b.courseId.s in s.courses
    requires s.courses[b.courseId.s].activeSession.sessionDate.Some?
    requires HasKey(s.ledger, Key(s.courses[b.courseId.s].id, caller.id,
                                  s.courses[b.courseId.s].activeSession.sessionDate.value))
    ensures !MarkAttendance(s, caller, b, now, distance, racing).1.Marked?
  {
  }

  /** The duplicate-key race: a request that passed the lookup, but whose record
      another request saved in the meantime, is answered "already marked" and adds
      nothing of its own. */
  lemma RaceMapsToAlreadyMarked(s: Server, caller: Caller, b: MarkBody, now: int,
                                distance: DistanceOracle, racing: seq<Attendance>, j: nat)
    requires ReachesGeofence(s, caller, b, now)
    requires distance(s.courses[b.courseId.s].classroom, b.latitude, b.longitude) <= MaxDistance
    requires RequiredString(s.courses[b.courseId.s].activeSession.sessionDate)
    requires !HasKey(s.ledger, Key(s.courses[b.courseId.s].id, caller.id,
                                   s.courses[b.courseId.s].activeSession.sessionDate.value))
    requires j < |racing|
    requires KeyOf(racing[j]) == Key(s.courses[b.courseId.s].id, caller.id,
                                     s.courses[b.courseId.s].activeSession.sessionDate.value)
    ensures var r := MarkAttendance(s, caller, b, now, distance, racing);
            r.1 == AlreadyMarked && r.0.ledger == InsertEach(s.ledger, racing)
  {
    var c := s.courses[b.courseId.s];
    var k := Key(c.id, caller.id, c.activeSession.sessionDate.value);
    InsertEachCovers(s.ledger, racing, k);
    var seen := InsertEach(s.ledger, racing);
    var a := Ledger.Create(DraftFor(c, caller, b), now);
    assert a.Ok? && KeyOf(a.value) == k;
    assert Insert(seen, a.value).Err?;
  }

  /** A redemption that passes every check, with no record yet and no concurrent
      save, is marked: exactly one record, with the session's date and the
      submitted location, is appended. The boundaries are inclusive: a request at
      the exact expiry instant and at exactly 100 metres is accepted. */
  lemma Redeemed(s: Server, caller: Caller, b: MarkBody, now: int, distance: DistanceOracle)
    requires ReachesGeofence(s, caller, b, now)
    requires distance(s.courses[b.courseId.s].classroom, b.latitude, b.longitude) <= MaxDistance
    requires RequiredString(s.courses[b.courseId.s].activeSession.sessionDate)
    requires !HasKey(s.ledger, Key(s.courses[b.courseId.s].id, caller.id,
                                   s.courses[b.courseId.s].activeSession.sessionDate.value))
    ensures var r := MarkAttendance(s, caller, b, now, distance, []);
            var c := s.courses[b.courseId.s];
            && r.1 == Marked(now, distance(c.classroom, b.latitude, b.longitude))
            && r.0.ledger == s.ledger + [Attendance(c.id, caller.id, c.activeSession.sessionDate.value,
                                                    now, Coords(b.latitude, b.longitude))]
  {
  }

  /** The refusal for distance names the distance: different distances give
      different messages. */
  lemma TooFarMessageNamesDistance(d1: nat, d2: nat)
    requires TooFar(d1).Message() == TooFar(d2).Message()
    ensures d1 == d2
  {
    var pre := "You are too far from the classroom. Distance: ";
    var post := "m (Max allowed: 100m)";
    var m := TooFar(d1).Message();
    assert |ToDecimal(d1)| == |ToDecimal(d2)|;
    assert ToDecimal(d1) == m[|pre|..|pre| + |ToDecimal(d1)|];
    assert ToDecimal(d2) == m[|pre|..|pre| + |ToDecimal(d2)|];
    ToDecimalInjective(d1, d2);
  }
}

=== FILE: tokens.dfy ===
/**
 * The session token generator: 32 random bytes rendered as lower-case
 * hexadecimal. The random source is an oracle: the caller hands in the bytes
 * it drew.
 */
module Tokens {
  import opened Wrappers

  type byte = x: int | 0 <= x < 256

  /** Number of random bytes per token. */
  const TokenBytes: nat := 32

  /** What one draw of the random source yields. */
  type Entropy = s: seq<byte> | |s| == TokenBytes witness seq(32, _ => 0)

  predicate IsHexChar(c: char) {
    '0' <= c <= '9' || 'a' <= c <= 'f'
  }

  predicate IsHexString(s: string) {
    forall i :: 0 <= i < |s| ==> IsHexChar(s[i])
  }

  /** The value of one hexadecimal digit, if `c` is one. */
  function HexValue(c: char): (r: Option<int>)
    ensures r.Some? <==> IsHexChar(c)
    ensures r.Some? ==> 0 <= r.value < 16
  {
    if '0' <= c <= '9' then Some(c as int - '0' as int)
    else if 'a' <= c <= 'f' then Some(c as int - 'a' as int + 10)
    else None
  }

  /** The digit that stands for `d`; `HexValue` reads it back. */
  function HexDigit(d: int): (c: char)
    requires 0 <= d < 16
    ensures IsHexChar(c)
    ensures HexValue(c) == Some(d)
  {
    if d < 10 then ('0' as int + d) as char else ('a' as int + d - 10) as char
  }

  /** Node's `Buffer.toString('hex')`: two lower-case digits per byte, high nibble first. */
  function HexEncode(bytes: seq<byte>): (s: string)
    ensures |s| == 2 * |bytes|
    ensures IsHexString(s)
  {
    if bytes == [] then ""
    else [HexDigit(bytes[0] / 16), HexDigit(bytes[0] % 16)] + HexEncode(bytes[1..])
  }

  /** Reads a hexadecimal string back into bytes; `None` on odd length or a non-digit. */
  function HexDecode(s: string): (r: Option<seq<byte>>)
    ensures r.Some? ==> 2 * |r.value| == |s|
  {
    if |s| == 0 then Some([])
    else if |s| == 1 then None
    else
      match (HexValue(s[0]), HexValue(s[1]), HexDecode(s[2..]))
      case (Some(hi), Some(lo), Some(rest)) => Some([hi * 16 + lo] + rest)
      case _ => None
  }

  /** Decoding undoes encoding, so the token determines the bytes it was drawn from. */
  lemma {:induction false} DecodeEncode(bytes: seq<byte>)
    ensures HexDecode(HexEncode(bytes)) == Some(bytes)
  {
    if bytes != [] {
      var s := HexEncode(bytes);
      assert s[2..] == HexEncode(bytes[1..]);
      DecodeEncode(bytes[1..]);
      assert [bytes[0] / 16 * 16 + bytes[0] % 16] + bytes[1..] == bytes;
    }
  }

  /** Different byte strings never encode to the same text. */
  lemma EncodeInjective(a: seq<byte>, b: seq<byte>)
    requires HexEncode(a) == HexEncode(b)
    ensures a == b
  {
    DecodeEncode(a);
    DecodeEncode(b);
  }

  /** `generateToken`: one draw of 32 random bytes, hex-encoded. */
  function GenerateToken(random: Entropy): (token: string)
    ensures |token| == 64
    ensures IsHexString(token)
    ensures HexDecode(token) == Some(random)
  {
    DecodeEncode(random);
    HexEncode(random)
  }

  /** Two different draws give two different tokens. */
  lemma DistinctDrawsDistinctTokens(r1: Entropy, r2: Entropy)
    requires r1 != r2
    ensures GenerateToken(r1) != GenerateToken(r2)
  {
    if GenerateToken(r1) == GenerateToken(r2) {
      EncodeInjective(r1, r2);
    }
  }
}

=== FILE: wrappers.dfy ===
/** Failure-carrying datatypes shared by every module of the model. */
module Wrappers {

  /** A value that may be absent: an unset document field, a missing map entry. */
  datatype Option<+T> = None | Some(value: T) {

    /** The value, or `default` when absent. */
    function GetOr(default: T): T {
      match this
      case Some(v) => v
      case None => default
    }
  }

  /** Either a value or an error. */
  datatype Result<+T, +E> = Ok(value: T) | Err(error: E)
}
